=== FILE: README.md ===
# laravel-ab assignment engine, in Dafny

A model of the variant-assignment core of the `Ab` class of laravel-ab (`src/App/Ab.php`).
When a visitor meets a named experiment, the engine decides which condition key to show
and registers that decision. At the end of the request it flushes the decision to the
store as Experiment and Event records. It also resolves and caches the visitor's Instance,
and it records goals.

The decision is a fixed pipeline:

1. **Weighted expansion.** The condition keys become a draw pool. A key whose first
   `[digits]` match is `n` is repeated `count(range(1, n))` times. If any key is weighted,
   the unweighted keys are dropped.
2. **Replay.** If the visitor's first event for the experiment has a truthy value, that
   value is fired again.
3. **Sticky tag.** If the visitor carries the tag `"[name]key"` for a pool key, the first
   such key is fired.
4. **Balancing.** Each historical value of the experiment record is counted: its first
   event stores 0, and each later event adds 1. If at least two values exist, and the
   largest count minus the smallest count exceeds 3, the least-used value is fired.
5. **Draw.** Otherwise the pool entry at the caller-supplied random index is fired.

Layout, one module per file:

- `wrappers.dfy` (`Wrappers`): `Option`, `Result`, and the model's error kinds.
- `ordered_map.dfy` (`OrderedMap`): PHP arrays used as dictionaries. `Put` is `$a[$k] = $v`:
  insertion order is kept and a key is never duplicated.
- `weights.dfy` (`Weights`): the `/\[(\d+)\]/` match, `range(1, n)`, and the draw pool.
- `search.dfy` (`Search`): the first-match linear scan shared by every lookup.
- `records.dfy` (`Records`): Instance, Experiment, Event and Goal, plus the Eloquent
  `where(...)->first()` and `firstOrCreate` lookups. A record's id is its position in its table.
- `balance.dfy` (`Balance`): the counting loop, the stable `asort` pick, the threshold rule,
  and the draw.
- `engine.dfy` (`Engine`): the request state. The two static fields `self::$session` and
  `self::$instance` become `cached` and `pending`. This module holds `ensureUser`,
  `hasExperiment`, the tag loop, `track`, `instanceEvent`, `saveCondition`, `saveSession`
  and `goal`.
- `flush.dfy` (`Flush`): `saveSession` is idempotent and records every pending decision.
- `invariants.dfy` (`Invariants`): the at-most-one-Event-per-experiment invariant, proved
  over arbitrary runs of requests, and the stickiness of a recorded assignment.

Outside collaborators become plain inputs:
- `Engine.Request` carries the client IP, the token bound to the current user
  (`User::current()->abTestInstance()`), and the token `md5(uniqid() . ip)` would produce.
- The visitor's tags are a `set<string>`.
- `rand()` is a caller-supplied index `roll` into the pool.

The model follows the code, including these behaviours a reader may not expect:
- With keys `"A[3]"` and `"B"`, the pool is three copies of `"A[3]"` and no `"B"`
  (`Weights.MixedWeightsDropUnweighted`).
- `range(1, 0)` counts down and yields `[1, 0]`, so a `[0]` weight puts two copies in the pool
  (`Weights.PhpRange`, `Weights.Repeats`).
- `saveSession` does not clear the pending decisions. They disappear only when the next
  request starts with empty static fields (`Engine.BeginRequest`).
- A fired key need not be a current condition key. A replayed value, or a value corrected
  from history, may be a key the current conditions no longer hold.
- At most one Event per (Instance, experiment name) is guaranteed only while no condition
  key is PHP-falsy (`""` or `"0"`). Replay skips a stored `"0"`, so a second Event can be
  created (`Invariants.FalsyKeyDuplicates`).
- `asort` is taken to be stable, as in PHP 8. Among the values of least count, the one
  that occurred first is the least-used value.

## Model

| member | source | states |
|---|---|---|
| Weights.MatchAt | src/App/Ab.php:171 | the pattern matches at a position exactly when a `[`, one or more ASCII digits and a `]` start there, and the captured number is those digits read in decimal |
| Weights.FirstMatchFrom | src/App/Ab.php:171 | the weight (`Weight` is the scan from position 0) is the number captured at the leftmost position where the pattern matches, and there is none exactly when no position matches |
| Weights.LeftmostWeight | src/App/Ab.php:171 | the leftmost match decides the weight: "A[2][5]" weighs 2, not 5 |
| Weights.BracketsEnd | src/App/Ab.php:171 | a match starting at a position ends right after the full digit run, so a position has at most one match |
| Weights.PhpRange | src/App/Ab.php:172 | PHP `range(lo, hi)` with step 1: it starts at lo, ends at hi, and its i-th element is lo + i when lo <= hi and lo - i otherwise |
| Weights.Repeats | src/App/Ab.php:172 | `count(range(1, n))`, derived from `PhpRange`: at least one copy; exactly n copies for a weight n >= 1, and 2 for a weight of 0 because `range(1, 0)` counts down |
| Weights.WeightedCount | src/App/Ab.php:169-176 | for distinct keys, the expansion holds `Repeats(n)` copies of a key whose first weight is n and none of an unweighted key or a non-key |
| Weights.WeightedEmptyIff | src/App/Ab.php:170-178 | the expansion is empty exactly when no key carries a weight |
| Weights.WeightedMembers | src/App/Ab.php:170-176 | every entry of the expansion is one of the condition keys |
| Weights.PoolContents | src/App/Ab.php:169-180 | if some key is weighted, each key's multiplicity in the pool is its weight's copy count and unweighted keys are absent; otherwise the pool is the key list in insertion order; the pool holds only keys and is non-empty when the keys are |
| Weights.Pool | src/App/Ab.php:169-180 | the draw pool holds only condition keys, is empty exactly when there are no keys, and is the key list itself when no key is weighted (multiplicities: `Weights.PoolContents`) |
| Weights.MixedWeightsDropUnweighted | src/App/Ab.php:169-180 | keys "A[3]" and "B" give the pool "A[3]" three times and no "B" |
| OrderedMap.Put | src/App/Ab.php:327-330 | PHP array assignment: the key then maps to the value, every other key keeps its value, an existing key keeps its position, a new key is appended, and keys stay distinct |
| Records.FirstOrCreateInstance | src/App/Ab.php:84-86 | returns an instance holding the token; if one exists the first is reused and nothing is written, otherwise exactly one instance is appended |
| Records.FirstOrCreateExperiment | src/App/Ab.php:121-124 | returns an experiment record for (name, goal); the first existing one is reused with no write, otherwise exactly one is appended |
| Records.FirstOrCreateEvent | src/App/Ab.php:126-130 | returns an event for (instance, name, value); the first existing one is reused with no write, otherwise exactly one unlinked event is appended |
| Records.LinkedPositions | src/App/Ab.php:222 | the positions of the events linked to the experiment record: each such position exactly once, in increasing (id) order |
| Records.ExperimentValues | src/App/Ab.php:222 | `$experiment->events` as values: one value per linked event, the i-th being the value at the i-th linked position, so each value occurs as often as its linked events |
| Records.ExperimentValuesMembers | src/App/Ab.php:222 | a value is historical exactly when some event linked to the experiment record carries it |
| Balance.TallySpec | src/App/Ab.php:220-228 | the counting loop `Tally` as a whole: keys distinct, each historical value counted as its occurrences minus one, only historical values counted, in first-occurrence order |
| Balance.TallyCounts | src/App/Ab.php:220-228 | each distinct historical value's count is its number of occurrences minus one, values that never occur have no count, and no value is counted twice; so two counts differ exactly as the raw occurrence counts do |
| Balance.TallyKeys | src/App/Ab.php:220-228 | the counted values are exactly the historical values |
| Balance.TallyOrder | src/App/Ab.php:220-228 | the counted values are listed in the order of their first occurrence |
| Balance.LeastUsed | src/App/Ab.php:235-238 | the first key after the stable ascending sort: a value of minimal count, with every earlier-listed value strictly more frequent |
| Balance.RandCondition | src/App/Ab.php:209-258 | when the history exists and two of its values have occurrence counts that differ by more than 3, the result is a least-occurring historical value, the first to occur among ties; in every other case (no record, fewer than two values, equal counts, spread of 3 or less) it is `pool[roll]` |
| Balance.Draw | src/App/Ab.php:255-258 | `_randCondition`: nothing exactly when the pool is empty, otherwise the pool key at the drawn index |
| Balance.NotSkewedSingle | src/App/Ab.php:231-233 | a history with fewer than two distinct values has no two values more than 3 apart |
| Balance.NotSkewedWithin | src/App/Ab.php:240-243 | when the spread of counts is at most 3 (in particular 0), no two values' occurrence counts differ by more than 3 |
| Balance.SkewedPick | src/App/Ab.php:245-250 | a spread above 3 means some two values occur more than 3 apart, and the least-used entry is the first-occurring value of least occurrence |
| Balance.TwoValueCorrection | src/App/Ab.php:245-250 | with a history of two values where one occurs more than 3 more times than the other (e.g. ten "A" and two "B"), the rarer value is fired whatever the pool and draw |
| Engine.BeginRequest | src/App/Ab.php:21-29 | a new PHP process starts with no cached instance and no pending decisions, while store and session persist |
| Engine.EnsureUser | src/App/Ab.php:58-95 | the session token is rewritten only when absent or forced (bound token preferred); a cached instance is never replaced, even when forced; otherwise the first existing instance holding the bound or session token is cached at its id with no instance added, or exactly one instance is appended and cached when none holds it; its identifier becomes the client IP, every other instance is kept as it was, no token changes, events and goals are untouched, and unique tokens stay unique |
| Engine.ReturningVisitor | src/App/Ab.php:78-94 | in a new request with the same session token and no bound token, `ensureUser` caches the very instance that holds the token, at its id |
| Engine.HasExperiment | src/App/Ab.php:338-347 | returns nothing exactly when the instance has no event with the name; otherwise the value of its first such event |
| Engine.FirstTagged | src/App/Ab.php:198-203 | returns the first pool key whose tag `[name]key` the visitor carries, and nothing exactly when no pool key is tagged |
| Engine.History | src/App/Ab.php:211-222 | nothing exactly when no experiment record for (name, goal) exists; otherwise the history lists the value of each event linked to the first such record, once per event in id order, so each value's multiplicity is its number of linked events |
| Engine.Replayed | src/App/Ab.php:183-185 | a replay happens exactly when the instance's first event for the name exists and its value is PHP-truthy, and then it is that value |
| Engine.Choose | src/App/Ab.php:183-207 | precedence: a truthy replayed value wins; else the first tagged pool key; else a skewed history fires its underdog; else `pool[roll]`; the result is always the replayed value, a pool key, or a historical value |
| Engine.InstanceEvent | src/App/Ab.php:327-330 | the decision is registered under its experiment name (last registration wins), other names keep their decisions, and the map keeps one decision per name |
| Engine.SaveCondition | src/App/Ab.php:316-319 | the key holds the latest content, other keys are unchanged, and a key keeps the position of its first registration |
| Engine.ConditionTwoPass | src/App/Ab.php:283-296 | registering a key with empty content and then its captured content is the same as saving the content at once |
| Engine.Track | src/App/Ab.php:161-191 | without a cached instance it fails; on success the fired key is the pipeline's choice over the expanded pool, the store, session and cache are unchanged, the decision is registered under the name, and the content shown is the fired key's content; with a cached instance it fails only for an empty pool |
| Engine.RecordGoal | src/App/Ab.php:266-273 | fails exactly when no instance is cached; otherwise exactly one goal for the cached instance is appended, and earlier goals and all other state are unchanged |
| Engine.FlushOne | src/App/Ab.php:120-134 | the decision ends up recorded (an event for instance, name and fired key, linked to an experiment for name and goal); at most one experiment and one event are appended, and an event is appended only if none matched; every other stored event, including its experiment link, is left unchanged |
| Engine.SaveSession | src/App/Ab.php:117-138 | with nothing pending the state is untouched; it fails only when decisions are pending without a cached instance; on success it returns the session token and changes only the store, with instances and goals kept, existing experiment records kept in place, old events keeping their instance, name and value, events of other instances and events matching no pending decision left untouched, and at most one new event per pending decision |
| Engine.FlushAll | src/App/Ab.php:119-135 | the loop over pending decisions keeps instances, goals and existing experiment records, keeps every existing event's instance, name and value at its position, leaves an event matching none of the decisions untouched, and adds at most one event per decision |
| Flush.FlushOneNoop | src/App/Ab.php:121-133 | flushing an already-flushed decision writes nothing |
| Flush.FlushOnePreserves | src/App/Ab.php:120-134 | flushing a decision of another name keeps a flushed decision flushed |
| Flush.FlushAllEstablishes | src/App/Ab.php:119-135 | after the loop, every decision it flushed has its first experiment record and first event, linked together |
| Flush.SaveSessionIdempotent | src/App/Ab.php:117-138 | saving the session a second time with the same pending decisions leaves the store as the first save left it |
| Flush.SaveSessionRecords | src/App/Ab.php:117-138 | after a successful save, every pending decision is recorded in the store |
| Invariants.ReplayOfRecorded | src/App/Ab.php:183-185 | when events are unique per name and truthy, replay returns the instance's event value for the name, and every such event holds that value |
| Invariants.TrackValid | src/App/Ab.php:161-191 | with truthy condition keys, `track` keeps the store invariant and every pending decision agrees with the instance's events |
| Invariants.SaveSessionValid | src/App/Ab.php:117-138 | the flush keeps at most one event per (instance, name), keeps event values truthy, and keeps pending decisions agreeing |
| Invariants.EnsureUserValid | src/App/Ab.php:58-95 | identity resolution keeps the invariant, including unique instance tokens |
| Invariants.RunValid | src/App/Ab.php:117-191 | any run of requests, identity resolutions, experiment blocks, saves and goals with truthy condition keys keeps the invariant |
| Invariants.AtMostOneEventEver | src/App/Ab.php:117-138 | starting from an empty store, after any such run no instance holds two events for one experiment name |
| Invariants.AssignmentSticks | src/App/Ab.php:183-185 | once an event records an instance's key for an experiment, any later block for that experiment run by that instance fires the same key, whatever conditions, tags, history or draw |
| Invariants.FalsyKeyDuplicates | src/App/Ab.php:183 | a stored "0" is not replayed, a new key is drawn, and the flush leaves the instance with two events for one experiment name |

## Left out

- Output buffering (`ob_start` and `ob_end_clean` in `condition` and `track`): content
  capture is only the explicit `Engine.SaveCondition`.
- `setup` (Ab.php:102-110) is not modelled. It iterates an undefined variable and calls
  `new self` without a Request, so it cannot run.
- Token generation, the `Session` and `config` facades, `User::current()` and
  `Visitor::isCurrentVisitorTaggedByKey` are outside code. They become the fields of
  `Engine.Request` and a set of tags.
- The cookie read at Ab.php:70 is not modelled: its value is assigned and never used.
- `rand()` is replaced by a caller-supplied index into the pool.
- Engine.Track: when an empty pool reaches the draw, the source fires PHP `null` and
  registers it. The model instead returns the `EmptyPool` error and leaves the state unchanged.
- Engine.Track: models `experiment()`, the condition captures and `track()` as one step.
  If two blocks of the same name interleave, or `track()` never follows `experiment()`, PHP
  keeps a different object, or a decision whose fired key is `null`, in the pending map. The model does not cover that.
- PHP type juggling is not modelled:
  - numeric-string array keys turn into integers;
  - the loose `==` in `hasExperiment` treats `"1"` and `"01"` as equal;
  - `null` equals `""` in the identifier check.
  Names, keys and values are compared as exact strings.
- Query results are taken in id (insertion) order. `->first()`, `$experiment->events` and
  `self::$session->events()->get()` (Ab.php:84, 121, 126, 211-214, 222, 340) have no
  `orderBy`, so SQL does not fix their row order. This choice decides which value wins a
  least-count tie in `Balance.IsUnderdog` (used by `Balance.RandCondition` and
  `Engine.Choose`) and which event `Engine.HasExperiment` returns.
- Engine.Track: PHP warnings are taken as non-fatal, as in plain PHP. A fired key that is
  not a current condition key (a replayed retired key, or a value corrected from history)
  makes `$this->conditions[$this->fired]` at Ab.php:190 an undefined-key read. The model
  returns `Success` with no content. Under Laravel's error handler that warning becomes an
  `ErrorException` and `track` throws; the model does not cover the throw.
- Weight numbers too large for a PHP integer are not modelled; weights are unbounded naturals.
- Database concurrency and races between requests are not modelled. Each step runs atomically.
- `getSession`, `getEvents`, `toArray` and `forceReset` are plain accessors. `forceReset`
  is `Engine.EnsureUser` with the force flag set.
- The middleware's cookie write and the `Goal` table mapping contain no logic.

=== FILE: balance.dfy ===
/** The balancing rule of `randCondition` and the uniform draw of `_randCondition`. */
module Balance {
  import opened Wrappers
  import opened OrderedMap

  /** How often `v` occurs in `vs`. */
  function Occ(vs: seq<string>, v: string): nat {
    multiset(vs)[v]
  }

  /** Position of the first occurrence of `v` in `vs`. */
  function FirstIndex(vs: seq<string>, v: string): (i: nat)
    requires v in vs
    ensures i < |vs| && vs[i] == v
    ensures forall j :: 0 <= j < i ==> vs[j] != v
  {
    if vs[0] == v then 0 else 1 + FirstIndex(vs[1..], v)
  }

  /** The counting loop: the first event with a value stores 0 under it,
      every later event with that value adds 1. */
  function Tally(vs: seq<string>): OMap<string, int>
    decreases |vs|
  {
    if vs == [] then []
    else
      var m := Tally(vs[..|vs| - 1]);
      var v := vs[|vs| - 1];
      Put(m, v, NextCount(Get(m, v)))
  }

  /** `isset($conditions[$v]) ? $conditions[$v] + 1 : 0`. */
  function NextCount(c: Option<int>): int {
    match c
    case Some(n) => n + 1
    case None => 0
  }

  /** One iteration of the counting loop keeps "count = occurrences - 1". */
  lemma CountStep(m: OMap<string, int>, init: seq<string>, v: string)
    requires DistinctKeys(m)
    requires forall w :: Get(m, w) == if w in init then Some(Occ(init, w) - 1) else None
    ensures DistinctKeys(Put(m, v, NextCount(Get(m, v))))
    ensures forall w :: Get(Put(m, v, NextCount(Get(m, v))), w) ==
              if w in init + [v] then Some(Occ(init + [v], w) - 1) else None
  {
    var vs := init + [v];
    var c := NextCount(Get(m, v));
    var r := Put(m, v, c);
    assert multiset(vs) == multiset(init) + multiset{v};
    assert c == Occ(vs, v) - 1 by {
      if v in init {
        assert Get(m, v) == Some(Occ(init, v) - 1);
      } else {
        assert Get(m, v) == None;
        assert Occ(init, v) == 0;
      }
    }
    forall w ensures Get(r, w) == if w in vs then Some(Occ(vs, w) - 1) else None {
      if w != v {
        assert Get(r, w) == Get(m, w);
        assert (w in vs) == (w in init);
        assert Occ(vs, w) == Occ(init, w);
      }
    }
  }

  lemma FirstIndexPrefix(vs: seq<string>, v: string)
    requires |vs| > 0
    requires v in vs[..|vs| - 1]
    ensures FirstIndex(vs, v) == FirstIndex(vs[..|vs| - 1], v)
  {
    var i := FirstIndex(vs[..|vs| - 1], v);
    assert vs[i] == v;
  }

  /** Each distinct value's count is its number of occurrences minus one; values
      that never occur have no entry; no value has two entries. */
  lemma {:induction false} TallyCounts(vs: seq<string>)
    ensures DistinctKeys(Tally(vs))
    ensures forall v :: Get(Tally(vs), v) == if v in vs then Some(Occ(vs, v) - 1) else None
    decreases |vs|
  {
    if vs != [] {
      var init := vs[..|vs| - 1];
      var v := vs[|vs| - 1];
      assert vs == init + [v];
      TallyCounts(init);
      CountStep(Tally(init), init, v);
    }
  }

  /** The tally's keys are exactly the historical values. */
  lemma {:induction false} TallyKeys(vs: seq<string>)
    ensures forall v :: v in Keys(Tally(vs)) <==> v in vs
    decreases |vs|
  {
    if vs != [] {
      var init := vs[..|vs| - 1];
      var v := vs[|vs| - 1];
      assert vs == init + [v];
      TallyKeys(init);
      forall w ensures w in Keys(Tally(vs)) <==> w in vs {
        assert (w in vs) <==> (w in init || w == v);
      }
    }
  }

  /** The tally lists the values in the order of their first occurrence. */
  lemma {:induction false} TallyOrder(vs: seq<string>)
    ensures forall i, j :: 0 <= i < j < |Tally(vs)| ==>
              Tally(vs)[i].key in vs && Tally(vs)[j].key in vs
              && FirstIndex(vs, Tally(vs)[i].key) < FirstIndex(vs, Tally(vs)[j].key)
    decreases |vs|
  {
    if vs != [] {
      var init := vs[..|vs| - 1];
      var v := vs[|vs| - 1];
      assert vs == init + [v];
      TallyOrder(init);
      TallyKeys(init);
      var m := Tally(init);
      var r := Tally(vs);
      TallyKeys(vs);
      forall i, j | 0 <= i < j < |r|
        ensures r[i].key in vs && r[j].key in vs && FirstIndex(vs, r[i].key) < FirstIndex(vs, r[j].key)
      {
        assert r[i].key in vs && r[j].key in vs by {
          assert r[i].key == Keys(r)[i] && r[j].key == Keys(r)[j];
        }
        assert m[i].key in init by {
          assert Keys(m)[i] == m[i].key;
        }
        if v in init {
          assert Keys(r) == Keys(m);
          assert r[i].key == Keys(r)[i] == Keys(m)[i] == m[i].key;
          assert r[j].key == Keys(r)[j] == Keys(m)[j] == m[j].key;
          assert m[j].key in init by {
            assert Keys(m)[j] == m[j].key;
          }
          FirstIndexPrefix(vs, m[i].key);
          FirstIndexPrefix(vs, m[j].key);
        } else {
          assert Keys(r) == Keys(m) + [v];
          assert r[i].key == Keys(r)[i] == Keys(m)[i] == m[i].key;
          FirstIndexPrefix(vs, m[i].key);
          if j < |m| {
            assert r[j].key == Keys(r)[j] == Keys(m)[j] == m[j].key;
            assert m[j].key in init by {
              assert Keys(m)[j] == m[j].key;
            }
            FirstIndexPrefix(vs, m[j].key);
          } else {
            assert r[j].key == Keys(r)[j] == v;
            assert FirstIndex(vs, v) == |vs| - 1;
          }
        }
      }
    } else {
      assert Tally(vs) == [];
    }
  }

  /** All three facts about the tally together. */
  lemma TallySpec(vs: seq<string>)
    ensures DistinctKeys(Tally(vs))
    ensures forall v :: Get(Tally(vs), v) == if v in vs then Some(Occ(vs, v) - 1) else None
    ensures forall v :: v in Keys(Tally(vs)) <==> v in vs
    ensures forall i, j :: 0 <= i < j < |Tally(vs)| ==>
              Tally(vs)[i].key in vs && Tally(vs)[j].key in vs
              && FirstIndex(vs, Tally(vs)[i].key) < FirstIndex(vs, Tally(vs)[j].key)
  {
    TallyCounts(vs);
    TallyKeys(vs);
    TallyOrder(vs);
  }

  /** The smallest count in a non-empty tally. */
  function MinCount(m: OMap<string, int>): (c: int)
    requires |m| > 0
    ensures forall i :: 0 <= i < |m| ==> c <= m[i].val
    ensures exists i :: 0 <= i < |m| && m[i].val == c
  {
    if |m| == 1 then m[0].val
    else
      var c := MinCount(m[1..]);
      assert forall i :: 1 <= i < |m| ==> m[i] == m[1..][i - 1];
      if m[0].val <= c then m[0].val else c
  }

  /** The largest count in a non-empty tally. */
  function MaxCount(m: OMap<string, int>): (c: int)
    requires |m| > 0
    ensures forall i :: 0 <= i < |m| ==> m[i].val <= c
    ensures exists i :: 0 <= i < |m| && m[i].val == c
  {
    if |m| == 1 then m[0].val
    else
      var c := MaxCount(m[1..]);
      assert forall i :: 1 <= i < |m| ==> m[i] == m[1..][i - 1];
      if m[0].val >= c then m[0].val else c
  }

  /** First position at or after `from` whose count is `c`. */
  function FirstWithCount(m: OMap<string, int>, c: int, from: nat): (i: nat)
    requires from <= |m|
    requires exists k :: from <= k < |m| && m[k].val == c
    ensures from <= i < |m| && m[i].val == c
    ensures forall j :: from <= j < i ==> m[j].val != c
    decreases |m| - from
  {
    if m[from].val == c then from else FirstWithCount(m, c, from + 1)
  }

  /** `$keys[0]` after `asort`: PHP's sort is stable, so among the values of least
      count the one that occurred first comes first. */
  function LeastUsed(m: OMap<string, int>): (i: nat)
    requires |m| > 0
    ensures i < |m| && m[i].val == MinCount(m)
    ensures forall j :: 0 <= j < i ==> m[j].val > m[i].val
  {
    FirstWithCount(m, MinCount(m), 0)
  }

  /** `_randCondition`: `$conditionKeys[rand(0, count - 1)]`, the index supplied by the caller.
      An empty pool has nothing to draw. */
  function Draw(pool: seq<string>, roll: nat): (r: Option<string>)
    requires roll < |pool| || pool == []
    ensures r.None? <==> pool == []
    ensures r.Some? ==> r.value in pool && r.value == pool[roll]
  {
    if pool == [] then None else Some(pool[roll])
  }

  /** Some two historical values have occurrence counts that differ by more than 3. */
  ghost predicate Skewed(vs: seq<string>) {
    exists a, b :: a in vs && b in vs && Occ(vs, a) > Occ(vs, b) + 3
  }

  /** `v` is the value the correction picks: one of least occurrence, the first to occur among those. */
  ghost predicate IsUnderdog(vs: seq<string>, v: string) {
    && v in vs
    && (forall w :: w in vs ==> Occ(vs, v) <= Occ(vs, w))
    && (forall w :: w in vs && Occ(vs, w) == Occ(vs, v) ==> FirstIndex(vs, v) <= FirstIndex(vs, w))
  }

  /** `randCondition` given the history of the experiment record (`None` when there is no record). */
  function RandCondition(history: Option<seq<string>>, pool: seq<string>, roll: nat): (r: Option<string>)
    requires roll < |pool| || pool == []
    ensures history.Some? && Skewed(history.value) ==> r.Some? && IsUnderdog(history.value, r.value)
    ensures !(history.Some? && Skewed(history.value)) ==>
              (pool == [] ==> r.None?) && (pool != [] ==> r == Some(pool[roll]))
  {
    match history
    case None => Draw(pool, roll)
    case Some(vs) =>
      var counts := Tally(vs);
      TallySpec(vs);
      if |counts| < 2 then
        NotSkewedSingle(vs);
        Draw(pool, roll)
      else
        var least := LeastUsed(counts);
        var lo := counts[least].val;
        var hi := MaxCount(counts);
        if lo == hi then
          NotSkewedWithin(vs, 0);
          Draw(pool, roll)
        else if hi - lo > 3 then
          SkewedPick(vs, least);
          Some(counts[least].key)
        else
          NotSkewedWithin(vs, hi - lo);
          Draw(pool, roll)
  }

  /** Fewer than two distinct values cannot be skewed. */
  lemma NotSkewedSingle(vs: seq<string>)
    requires |Tally(vs)| < 2
    ensures !Skewed(vs)
  {
    TallySpec(vs);
    var m := Tally(vs);
    forall a, b | a in vs && b in vs ensures Occ(vs, a) == Occ(vs, b) {
      var ia := IndexOf(m, a);
      var ib := IndexOf(m, b);
      assert a in Keys(m) && b in Keys(m);
      assert ia.Some? && ib.Some?;
    }
  }

  /** When all counts lie within `d` of each other, so do all occurrence counts. */
  lemma NotSkewedWithin(vs: seq<string>, d: int)
    requires |Tally(vs)| > 0
    requires d <= 3
    requires MaxCount(Tally(vs)) - MinCount(Tally(vs)) <= d
    ensures !Skewed(vs)
  {
    TallySpec(vs);
    var m := Tally(vs);
    forall a, b | a in vs && b in vs ensures Occ(vs, a) <= Occ(vs, b) + 3 {
      var ia := IndexOf(m, a);
      var ib := IndexOf(m, b);
      assert a in Keys(m) && b in Keys(m);
      assert ia.Some? && ib.Some?;
      assert m[ia.value].val == Occ(vs, a) - 1;
      assert m[ib.value].val == Occ(vs, b) - 1;
    }
  }

  /** A spread above 3 makes the history skewed, and the least-used entry is the underdog. */
  lemma SkewedPick(vs: seq<string>, least: nat)
    requires |Tally(vs)| > 0
    requires least == LeastUsed(Tally(vs))
    requires MaxCount(Tally(vs)) - Tally(vs)[least].val > 3
    ensures Skewed(vs)
    ensures IsUnderdog(vs, Tally(vs)[least].key)
  {
    TallySpec(vs);
    var m := Tally(vs);
    var v := m[least].key;
    GetAt(m, least);
    assert v in vs by {
      assert v == Keys(m)[least];
    }
    var top :| 0 <= top < |m| && m[top].val == MaxCount(m);
    GetAt(m, top);
    assert m[top].key in vs by {
      assert m[top].key == Keys(m)[top];
    }
    assert Occ(vs, m[top].key) > Occ(vs, v) + 3;
    forall w | w in vs ensures Occ(vs, v) <= Occ(vs, w)
      && (Occ(vs, w) == Occ(vs, v) ==> FirstIndex(vs, v) <= FirstIndex(vs, w))
    {
      assert w in Keys(m);
      var iw := IndexOf(m, w);
      assert iw.Some?;
      var k := iw.value;
      assert m[k].val == Occ(vs, w) - 1;
      if Occ(vs, w) == Occ(vs, v) && k != least {
        assert k > least;
      }
    }
  }

  /** A history of two values, one occurring more than 3 more times than the other
      (say ten "A" events and two "B" events): the rarer value is chosen, whatever
      the pool and the draw. */
  lemma TwoValueCorrection(vs: seq<string>, a: string, b: string, pool: seq<string>, roll: nat)
    requires roll < |pool| || pool == []
    requires forall w :: w in vs ==> w == a || w == b
    requires b in vs && Occ(vs, a) > Occ(vs, b) + 3
    ensures RandCondition(Some(vs), pool, roll) == Some(b)
  {
    assert a in vs;
    assert Skewed(vs);
    var r := RandCondition(Some(vs), pool, roll);
    assert r.Some? && IsUnderdog(vs, r.value);
  }
}

=== FILE: engine.dfy ===
/** The `Ab` class: identity caching, the decision pipeline of `track`, the pending
    map of fired experiments, its flush by `saveSession`, and goal recording.
    PHP's two static fields become the `cached` and `pending` parts of `State`. */
module Engine {
  import opened Wrappers
  import opened OrderedMap
  import opened Weights
  import opened Records
  import opened Balance

  /** What `ensureUser` reads from outside: the client IP, the token bound to the
      current user (`User::current()->abTestInstance()->instance`), and the token
      `md5(uniqid() . ip)` would produce now. */
  datatype Request = Request(clientIp: string, boundToken: Option<string>, freshToken: string)

  /** An `Ab` object registered in `self::$instance`: experiment name, goal, fired key. */
  datatype Decision = Decision(name: string, goal: string, fired: string)

  /** The store, the session value under the cache key, `self::$session` (an instance id)
      and `self::$instance` (pending decisions keyed by experiment name). */
  datatype State = State(
    store: Store,
    sessionToken: Option<string>,
    cached: Option<nat>,
    pending: OMap<string, Decision>)

  /** Each request starts with empty static fields, while the store and the session
      persist. */
  function BeginRequest(st: State): (r: State)
    ensures r.cached.None? && r.pending == []
    ensures r.store == st.store && r.sessionToken == st.sessionToken
  {
    State(st.store, st.sessionToken, None, [])
  }

  /** The token `ensureUser` picks: the user's bound token if any, else a fresh one. */
  function PreferredToken(req: Request): string {
    match req.boundToken
    case Some(t) => t
    case None => req.freshToken
  }

  /** The token `ensureUser` looks the instance up by: the user's bound token, else the
      session token. */
  function LookupToken(req: Request, session: string): string {
    match req.boundToken
    case Some(t) => t
    case None => session
  }

  /** `ensureUser($forceSession)`. The session token is (re)written only when absent or
      forced; the cached instance, once set, is never replaced, not even when forced;
      otherwise the instance for the bound or session token is found or created and
      its identifier set to the client IP. */
  function EnsureUser(st: State, req: Request, force: bool): (r: State)
    ensures r.pending == st.pending
    ensures st.sessionToken.Some? && !force ==> r.sessionToken == st.sessionToken
    ensures st.sessionToken.None? || force ==> r.sessionToken == Some(PreferredToken(req))
    ensures st.cached.Some? ==> r.cached == st.cached && r.store == st.store
    ensures r.sessionToken.Some?
    ensures st.cached.None? ==>
              && r.cached.Some?
              && r.cached.value < |r.store.instances|
              && r.store.instances[r.cached.value].token == LookupToken(req, r.sessionToken.value)
              && r.store.instances[r.cached.value].identifier == Some(req.clientIp)
              && r.store.experiments == st.store.experiments
              && r.store.events == st.store.events
              && r.store.goals == st.store.goals
    ensures st.cached.None? ==>
              var found := FindInstance(st.store.instances, LookupToken(req, r.sessionToken.value));
              && (found.Some? ==> r.cached == found && |r.store.instances| == |st.store.instances|)
              && (found.None? ==> r.cached == Some(|st.store.instances|)
                                  && |r.store.instances| == |st.store.instances| + 1)
    ensures st.cached.None? ==>
              forall j :: 0 <= j < |st.store.instances| ==>
                && r.store.instances[j].token == st.store.instances[j].token
                && (Some(j) != r.cached ==> r.store.instances[j] == st.store.instances[j])
    ensures st.cached.None? && UniqueTokens(st.store.instances) ==> UniqueTokens(r.store.instances)
  {
    var token :=
      if st.sessionToken.None? || force then Some(PreferredToken(req)) else st.sessionToken;
    if st.cached.Some? then
      st.(sessionToken := token)
    else
      var uid := LookupToken(req, token.value);
      var (s1, id) := FirstOrCreateInstance(st.store, uid);
      var inst := s1.instances[id];
      var s2 :=
        if inst.identifier != Some(req.clientIp)
        then s1.(instances := s1.instances[id := inst.(identifier := Some(req.clientIp))])
        else s1;
      assert forall j :: 0 <= j < |s2.instances| ==> s2.instances[j].token == s1.instances[j].token;
      State(s2, token, Some(id), st.pending)
  }

  /** No two instances share a token. */
  ghost predicate UniqueTokens(xs: seq<Instance>) {
    forall i, j :: 0 <= i < j < |xs| ==> xs[i].token != xs[j].token
  }

  /** A returning visitor: in a new request with the same session token and no bound
      token, `ensureUser` caches the very instance that holds the token, at its id. */
  lemma ReturningVisitor(st: State, req: Request, i: nat)
    requires UniqueTokens(st.store.instances)
    requires st.sessionToken.Some? && req.boundToken.None?
    requires i < |st.store.instances| && st.store.instances[i].token == st.sessionToken.value
    ensures EnsureUser(BeginRequest(st), req, false).cached == Some(i)
    ensures EnsureUser(BeginRequest(st), req, false).store.instances[i].token == st.sessionToken.value
  {
    var found := FindInstance(st.store.instances, st.sessionToken.value);
    assert found.Some? && found.value <= i;
  }

  /** PHP truthiness of a string: every string but "" and "0". */
  predicate Truthy(v: string) {
    v != "" && v != "0"
  }

  /** `hasExperiment`: the value of the instance's first event named `name`,
      `None` standing for the `false` returned when there is none. */
  function HasExperiment(store: Store, inst: nat, name: string): (r: Option<string>)
    ensures r.None? <==> forall j :: 0 <= j < |store.events| ==>
                           !(store.events[j].instanceId == inst && store.events[j].name == name)
    ensures r.Some? ==> exists j :: && 0 <= j < |store.events|
                                    && store.events[j].instanceId == inst && store.events[j].name == name
                                    && store.events[j].value == r.value
                                    && forall k :: 0 <= k < j ==>
                                         !(store.events[k].instanceId == inst && store.events[k].name == name)
  {
    match FindNamed(store.events, inst, name)
    case Some(j) => Some(store.events[j].value)
    case None => None
  }

  /** The tag that pins a visitor to `key` in experiment `name`. */
  function TagFor(name: string, key: string): string {
    "[" + name + "]" + key
  }

  /** The loop of `setConditionToFire`: the first pool key whose tag the visitor carries. */
  function FirstTagged(pool: seq<string>, name: string, tags: set<string>): (r: Option<string>)
    ensures r.Some? ==> exists i :: && 0 <= i < |pool| && pool[i] == r.value
                                    && TagFor(name, pool[i]) in tags
                                    && forall j :: 0 <= j < i ==> TagFor(name, pool[j]) !in tags
    ensures r.None? <==> forall i :: 0 <= i < |pool| ==> TagFor(name, pool[i]) !in tags
  {
    if pool == [] then None
    else if TagFor(name, pool[0]) in tags then Some(pool[0])
    else
      var r := FirstTagged(pool[1..], name, tags);
      assert forall i :: 1 <= i < |pool| ==> pool[i] == pool[1..][i - 1];
      r
  }

  /** The history `randCondition` balances on: the event values of the first experiment
      record for (name, goal), or `None` when there is no such record. */
  function History(store: Store, name: string, goal: string): (r: Option<seq<string>>)
    ensures r.None? <==> forall j :: 0 <= j < |store.experiments| ==> store.experiments[j] != Experiment(name, goal)
    ensures r.Some? ==>
              var e := FindExperiment(store.experiments, name, goal);
              forall v :: v in r.value <==> exists j :: && 0 <= j < |store.events|
                                                       && store.events[j].experimentId == e
                                                       && store.events[j].value == v
    ensures r.Some? ==>
              var ps := LinkedPositions(store.events, FindExperiment(store.experiments, name, goal).value);
              && |r.value| == |ps|
              && forall i :: 0 <= i < |r.value| ==> r.value[i] == store.events[ps[i]].value
  {
    match FindExperiment(store.experiments, name, goal)
    case Some(e) =>
      ExperimentValuesMembers(store.events, e);
      Some(ExperimentValues(store.events, e))
    case None => None
  }

  /** The replayed value, if `track` replays: a first event with a truthy value. */
  function Replayed(store: Store, inst: nat, name: string): (r: Option<string>)
    ensures r.Some? ==> Truthy(r.value) && r == HasExperiment(store, inst, name)
    ensures r.None? <==> HasExperiment(store, inst, name).None? || !Truthy(HasExperiment(store, inst, name).value)
  {
    match HasExperiment(store, inst, name)
    case Some(v) => if Truthy(v) then Some(v) else None
    case None => None
  }

  /** The decision of `track` for a visitor who meets experiment `name`: replay beats the
      sticky tag, which beats the balancing rule, which beats the random draw. The
      replayed value need not be in the pool; a corrected value comes from history. */
  function Choose(store: Store, inst: nat, name: string, goal: string, pool: seq<string>,
                  tags: set<string>, roll: nat): (r: Option<string>)
    requires roll < |pool| || pool == []
    ensures Replayed(store, inst, name).Some? ==> r == Replayed(store, inst, name)
    ensures Replayed(store, inst, name).None? && FirstTagged(pool, name, tags).Some? ==>
              r == FirstTagged(pool, name, tags)
    ensures Replayed(store, inst, name).None? && FirstTagged(pool, name, tags).None? ==>
              && (History(store, name, goal).Some? && Skewed(History(store, name, goal).value) ==>
                    r.Some? && IsUnderdog(History(store, name, goal).value, r.value))
              && (!(History(store, name, goal).Some? && Skewed(History(store, name, goal).value)) ==>
                    (pool == [] ==> r.None?) && (pool != [] ==> r == Some(pool[roll])))
    ensures r.Some? ==> || Replayed(store, inst, name) == r
                        || r.value in pool
                        || (History(store, name, goal).Some? && r.value in History(store, name, goal).value)
  {
    match Replayed(store, inst, name)
    case Some(v) => Some(v)
    case None =>
      match FirstTagged(pool, name, tags)
      case Some(k) => Some(k)
      case None => RandCondition(History(store, name, goal), pool, roll)
  }

  /** `instanceEvent`: `self::$instance[$name] = $this`. One decision per name, the last
      registration wins, every other name keeps its decision. */
  function InstanceEvent(pending: OMap<string, Decision>, d: Decision): (r: OMap<string, Decision>)
    ensures Get(r, d.name) == Some(d)
    ensures forall n :: n != d.name ==> Get(r, n) == Get(pending, n)
    ensures |r| <= |pending| + 1
    ensures NamedByKey(pending) ==> NamedByKey(r)
  {
    var r := Put(pending, d.name, d);
    assert |Keys(r)| == |r|;
    assert NamedByKey(pending) ==> NamedByKey(r) by {
      if NamedByKey(pending) {
        forall i | 0 <= i < |r| ensures r[i].key == r[i].val.name {
          assert r[i].key == Keys(r)[i];
          if r[i].key == d.name {
            GetAt(r, i);
          } else if d.name in Keys(pending) {
            assert r[i] == pending[i];
          } else if i < |pending| {
            assert r[i] == pending[i];
          }
        }
      }
    }
    r
  }

  /** Every pending decision sits under its own name, and no name twice. */
  ghost predicate NamedByKey(pending: OMap<string, Decision>) {
    && DistinctKeys(pending)
    && forall i :: 0 <= i < |pending| ==> pending[i].key == pending[i].val.name
  }

  /** `saveCondition`: the content captured for a condition key. A key keeps the position
      of its first registration and holds the content registered last. */
  function SaveCondition(conditions: OMap<string, string>, key: string, data: string): (r: OMap<string, string>)
    ensures Get(r, key) == Some(data)
    ensures forall k :: k != key ==> Get(r, k) == Get(conditions, k)
    ensures key in Keys(conditions) ==> Keys(r) == Keys(conditions)
    ensures key !in Keys(conditions) ==> Keys(r) == Keys(conditions) + [key]
  {
    Put(conditions, key, data)
  }

  /** `condition($key)` registers the key with empty content before its content is known
      and the output buffer later saves the content: the same as saving the content at once. */
  lemma ConditionTwoPass(conditions: OMap<string, string>, key: string, data: string)
    requires DistinctKeys(conditions)
    ensures SaveCondition(SaveCondition(conditions, key, ""), key, data) == SaveCondition(conditions, key, data)
  {
    var once := SaveCondition(conditions, key, data);
    var twice := SaveCondition(SaveCondition(conditions, key, ""), key, data);
    assert Keys(twice) == Keys(once);
    assert |twice| == |once|;
    forall i | 0 <= i < |once| ensures twice[i] == once[i] {
      assert twice[i].key == Keys(twice)[i] == Keys(once)[i] == once[i].key;
      assert DistinctKeys(once) && DistinctKeys(twice);
      GetAt(once, i);
      GetAt(twice, i);
    }
  }

  /** What `track` leaves behind: the new state, the fired key and the content shown. */
  datatype Shown = Shown(state: State, fired: string, content: Option<string>)

  /** `experiment($name)`, the `condition` captures and `track($goal)` of one experiment
      block. The pool is expanded from the condition keys, the key is chosen, the decision
      is registered under the experiment name, and the content of the fired key is returned
      (`None` for a fired key that is not a condition, e.g. a replayed retired key). */
  function Track(st: State, name: string, goal: string, conditions: OMap<string, string>,
                 tags: set<string>, roll: nat): (r: Result<Shown>)
    requires roll < |Pool(Keys(conditions))| || Pool(Keys(conditions)) == []
    ensures st.cached.None? ==> r == Failure(NoInstance)
    ensures r.Success? ==>
              && st.cached.Some?
              && Some(r.value.fired) == Choose(st.store, st.cached.value, name, goal,
                                               Pool(Keys(conditions)), tags, roll)
              && r.value.state.store == st.store
              && r.value.state.cached == st.cached
              && r.value.state.sessionToken == st.sessionToken
              && Get(r.value.state.pending, name) == Some(Decision(name, goal, r.value.fired))
              && (forall n :: n != name ==> Get(r.value.state.pending, n) == Get(st.pending, n))
              && r.value.content == Get(conditions, r.value.fired)
    ensures st.cached.Some? && r.Failure? ==> Pool(Keys(conditions)) == []
  {
    if st.cached.None? then Failure(NoInstance)
    else
      var pool := Pool(Keys(conditions));
      match Choose(st.store, st.cached.value, name, goal, pool, tags, roll)
      case None => Failure(EmptyPool)
      case Some(fired) =>
        var d := Decision(name, goal, fired);
        Success(Shown(st.(pending := InstanceEvent(st.pending, d)), fired, Get(conditions, fired)))
  }

  /** `goal($name, $value)`: exactly one new goal for the cached instance is appended;
      earlier goals and everything else stay as they were. */
  function RecordGoal(st: State, name: string, value: Option<string>): (r: Result<State>)
    ensures st.cached.None? <==> r.Failure?
    ensures r.Success? ==>
              && |r.value.store.goals| == |st.store.goals| + 1
              && r.value.store.goals[..|st.store.goals|] == st.store.goals
              && r.value.store.goals[|st.store.goals|] == Goal(st.cached.value, name, value)
              && r.value == st.(store := st.store.(goals := r.value.store.goals))
  {
    if st.cached.None? then Failure(NoInstance)
    else
      var goals := st.store.goals + [Goal(st.cached.value, name, value)];
      assert goals[..|st.store.goals|] == st.store.goals;
      Success(st.(store := st.store.(goals := goals)))
  }

  /** The pending decisions in registration order. */
  function Decisions(pending: OMap<string, Decision>): (ds: seq<Decision>)
    ensures |ds| == |pending|
    ensures forall i :: 0 <= i < |pending| ==> ds[i] == pending[i].val
  {
    seq(|pending|, i requires 0 <= i < |pending| => pending[i].val)
  }

  /** One iteration of `saveSession`: find or create the experiment, find or create the
      event (instance, name, fired), and link the event to the experiment. */
  function FlushOne(store: Store, inst: nat, d: Decision): (r: Store)
    ensures r.instances == store.instances && r.goals == store.goals
    ensures |store.experiments| <= |r.experiments| <= |store.experiments| + 1
    ensures r.experiments[..|store.experiments|] == store.experiments
    ensures |store.events| <= |r.events| <= |store.events| + 1
    ensures forall j :: 0 <= j < |store.events| ==>
              EventIs(r.events[j], store.events[j].instanceId, store.events[j].name, store.events[j].value)
    ensures |r.events| == |store.events| + 1 ==>
              (forall j :: 0 <= j < |store.events| ==> !EventIs(store.events[j], inst, d.name, d.fired))
              && EventIs(r.events[|store.events|], inst, d.name, d.fired)
    ensures forall j :: 0 <= j < |store.events| && !EventIs(store.events[j], inst, d.name, d.fired) ==>
              r.events[j] == store.events[j]
    ensures Recorded(r, inst, d)
  {
    var (s1, e) := FirstOrCreateExperiment(store, d.name, d.goal);
    assert s1.experiments[..|store.experiments|] == store.experiments;
    var (s2, j) := FirstOrCreateEvent(s1, inst, d.name, d.fired);
    var r := s2.(events := s2.events[j := s2.events[j].(experimentId := Some(e))]);
    assert EventIs(r.events[j], inst, d.name, d.fired) && r.events[j].experimentId == Some(e);
    r
  }

  /** The decision has an event for the instance, linked to an experiment record for
      its name and goal. */
  ghost predicate Recorded(store: Store, inst: nat, d: Decision) {
    exists j :: && 0 <= j < |store.events|
                && EventIs(store.events[j], inst, d.name, d.fired)
                && store.events[j].experimentId.Some?
                && store.events[j].experimentId.value < |store.experiments|
                && store.experiments[store.events[j].experimentId.value] == Experiment(d.name, d.goal)
  }

  /** The loop of `saveSession` over the pending decisions, in order. */
  function FlushAll(store: Store, inst: nat, ds: seq<Decision>): (r: Store)
    ensures r.instances == store.instances && r.goals == store.goals
    ensures |store.experiments| <= |r.experiments| && r.experiments[..|store.experiments|] == store.experiments
    ensures |store.events| <= |r.events| <= |store.events| + |ds|
    ensures forall j :: 0 <= j < |store.events| ==>
              EventIs(r.events[j], store.events[j].instanceId, store.events[j].name, store.events[j].value)
    ensures forall j :: 0 <= j < |store.events|
                        && (forall k :: 0 <= k < |ds| ==> !EventIs(store.events[j], inst, ds[k].name, ds[k].fired)) ==>
              r.events[j] == store.events[j]
    decreases |ds|
  {
    if ds == [] then store
    else
      var s1 := FlushOne(store, inst, ds[0]);
      assert forall k :: 1 <= k < |ds| ==> ds[k] == ds[1..][k - 1];
      FlushAll(s1, inst, ds[1..])
  }

  /** `saveSession`: with pending decisions, every one is flushed for the cached instance;
      the session token is returned for the cookie. The pending map is not cleared. */
  function SaveSession(st: State): (r: Result<(State, Option<string>)>)
    ensures st.pending == [] ==> r == Success((st, st.sessionToken))
    ensures st.pending != [] && st.cached.None? ==> r == Failure(NoInstance)
    ensures r.Failure? ==> st.pending != [] && st.cached.None?
    ensures r.Success? ==>
              && r.value.1 == st.sessionToken
              && r.value.0 == st.(store := r.value.0.store)
              && r.value.0.store.instances == st.store.instances
              && r.value.0.store.goals == st.store.goals
              && |st.store.experiments| <= |r.value.0.store.experiments|
              && r.value.0.store.experiments[..|st.store.experiments|] == st.store.experiments
              && |st.store.events| <= |r.value.0.store.events| <= |st.store.events| + |st.pending|
    ensures r.Success? ==>
              forall j :: 0 <= j < |st.store.events| ==>
                && EventIs(r.value.0.store.events[j], st.store.events[j].instanceId,
                           st.store.events[j].name, st.store.events[j].value)
                && (Some(st.store.events[j].instanceId) != st.cached ==>
                      r.value.0.store.events[j] == st.store.events[j])
    ensures r.Success? && st.cached.Some? ==>
              var ds := Decisions(st.pending);
              forall j :: 0 <= j < |st.store.events|
                          && (forall k :: 0 <= k < |ds| ==>
                                !EventIs(st.store.events[j], st.cached.value, ds[k].name, ds[k].fired)) ==>
                r.value.0.store.events[j] == st.store.events[j]
  {
    if st.pending == [] then Success((st, st.sessionToken))
    else if st.cached.None? then Failure(NoInstance)
    else
      var store := FlushAll(st.store, st.cached.value, Decisions(st.pending));
      Success((st.(store := store), st.sessionToken))
  }
}

=== FILE: flush.dfy ===
/** Properties of `saveSession`'s find-or-create flush: flushing the same pending
    decisions again writes nothing, and every flushed decision is on record. */
module Flush {
  import opened Wrappers
  import opened OrderedMap
  import opened Records
  import opened Engine

  /** The first experiment record for the decision exists, and the first event
      (instance, name, fired) exists and is linked to it. */
  ghost predicate Flushed(s: Store, inst: nat, d: Decision) {
    && FindExperiment(s.experiments, d.name, d.goal).Some?
    && FindEvent(s.events, inst, d.name, d.fired).Some?
    && s.events[FindEvent(s.events, inst, d.name, d.fired).value].experimentId
         == Some(FindExperiment(s.experiments, d.name, d.goal).value)
  }

  /** The first match survives in a longer table whose old part is unchanged. */
  lemma FindExperimentExtend(xs: seq<Experiment>, ys: seq<Experiment>, name: string, goal: string)
    requires |xs| <= |ys| && ys[..|xs|] == xs
    requires FindExperiment(xs, name, goal).Some?
             || forall j :: |xs| <= j < |ys| ==> ys[j] != Experiment(name, goal)
    ensures FindExperiment(ys, name, goal) == FindExperiment(xs, name, goal)
  {
    assert forall j :: 0 <= j < |xs| ==> ys[j] == xs[j] by {
      forall j | 0 <= j < |xs| ensures ys[j] == xs[j] {
        assert ys[..|xs|][j] == ys[j];
      }
    }
    var a := FindExperiment(xs, name, goal);
    var b := FindExperiment(ys, name, goal);
    if a.Some? {
      assert b.Some?;
      assert b.value == a.value;
    }
  }

  /** The first matching event survives when the old events keep their key fields and
      nothing matching is added, or when a match already existed. */
  lemma FindEventFrame(xs: seq<Event>, ys: seq<Event>, inst: nat, name: string, value: string)
    requires |xs| <= |ys|
    requires forall j :: 0 <= j < |xs| ==> (EventIs(ys[j], inst, name, value) <==> EventIs(xs[j], inst, name, value))
    requires FindEvent(xs, inst, name, value).Some?
             || forall j :: |xs| <= j < |ys| ==> !EventIs(ys[j], inst, name, value)
    ensures FindEvent(ys, inst, name, value) == FindEvent(xs, inst, name, value)
  {
    var a := FindEvent(xs, inst, name, value);
    var b := FindEvent(ys, inst, name, value);
    if a.Some? {
      assert b.Some?;
      assert b.value == a.value;
    }
  }

  /** A position holding the first match is what the lookup finds. */
  lemma ExperimentAt(xs: seq<Experiment>, name: string, goal: string, e: nat)
    requires e < |xs| && xs[e] == Experiment(name, goal)
    requires forall j :: 0 <= j < e ==> xs[j] != Experiment(name, goal)
    ensures FindExperiment(xs, name, goal) == Some(e)
  {
    var r := FindExperiment(xs, name, goal);
    assert r.Some?;
  }

  lemma EventAt(xs: seq<Event>, inst: nat, name: string, value: string, j: nat)
    requires j < |xs| && EventIs(xs[j], inst, name, value)
    requires forall k :: 0 <= k < j ==> !EventIs(xs[k], inst, name, value)
    ensures FindEvent(xs, inst, name, value) == Some(j)
  {
    var r := FindEvent(xs, inst, name, value);
    assert r.Some?;
  }

  /** Flushing a decision that is already flushed writes nothing. */
  lemma FlushOneNoop(s: Store, inst: nat, d: Decision)
    requires Flushed(s, inst, d)
    ensures FlushOne(s, inst, d) == s
  {
    var e := FindExperiment(s.experiments, d.name, d.goal).value;
    var j := FindEvent(s.events, inst, d.name, d.fired).value;
    var (s1, e') := FirstOrCreateExperiment(s, d.name, d.goal);
    assert s1 == s && e' == e;
    var (s2, j') := FirstOrCreateEvent(s1, inst, d.name, d.fired);
    assert s2 == s && j' == j;
    assert s.events[j].(experimentId := Some(e)) == s.events[j];
    assert s.events[j := s.events[j]] == s.events;
  }

  /** After flushing a decision it is flushed. */
  lemma FlushOneEstablishes(s: Store, inst: nat, d: Decision)
    ensures Flushed(FlushOne(s, inst, d), inst, d)
  {
    var (s1, e) := FirstOrCreateExperiment(s, d.name, d.goal);
    ExperimentAt(s1.experiments, d.name, d.goal, e);
    var (s2, j) := FirstOrCreateEvent(s1, inst, d.name, d.fired);
    EventAt(s2.events, inst, d.name, d.fired, j);
    var r := s2.(events := s2.events[j := s2.events[j].(experimentId := Some(e))]);
    assert r == FlushOne(s, inst, d);
    FindEventFrame(s2.events, r.events, inst, d.name, d.fired);
  }

  /** Flushing a decision of another name leaves a flushed decision flushed. */
  lemma FlushOnePreserves(s: Store, inst: nat, d: Decision, other: Decision)
    requires Flushed(s, inst, d)
    requires other.name != d.name
    ensures Flushed(FlushOne(s, inst, other), inst, d)
  {
    var (s1, e) := FirstOrCreateExperiment(s, other.name, other.goal);
    FindExperimentExtend(s.experiments, s1.experiments, d.name, d.goal);
    var (s2, j) := FirstOrCreateEvent(s1, inst, other.name, other.fired);
    FindEventFrame(s1.events, s2.events, inst, d.name, d.fired);
    var r := s2.(events := s2.events[j := s2.events[j].(experimentId := Some(e))]);
    assert r == FlushOne(s, inst, other);
    FindEventFrame(s2.events, r.events, inst, d.name, d.fired);
  }

  /** Decisions of pairwise different names. */
  ghost predicate DistinctNames(ds: seq<Decision>) {
    forall i, j :: 0 <= i < j < |ds| ==> ds[i].name != ds[j].name
  }

  /** A flushed decision stays flushed while decisions of other names are flushed. */
  lemma {:induction false} FlushAllPreserves(s: Store, inst: nat, ds: seq<Decision>, d: Decision)
    requires Flushed(s, inst, d)
    requires forall i :: 0 <= i < |ds| ==> ds[i].name != d.name
    ensures Flushed(FlushAll(s, inst, ds), inst, d)
    decreases |ds|
  {
    if ds != [] {
      FlushOnePreserves(s, inst, d, ds[0]);
      FlushAllPreserves(FlushOne(s, inst, ds[0]), inst, ds[1..], d);
    }
  }

  /** After the flush loop every decision of the loop is flushed. */
  lemma {:induction false} FlushAllEstablishes(s: Store, inst: nat, ds: seq<Decision>)
    requires DistinctNames(ds)
    ensures forall i :: 0 <= i < |ds| ==> Flushed(FlushAll(s, inst, ds), inst, ds[i])
    decreases |ds|
  {
    if ds != [] {
      var s1 := FlushOne(s, inst, ds[0]);
      FlushOneEstablishes(s, inst, ds[0]);
      FlushAllPreserves(s1, inst, ds[1..], ds[0]);
      FlushAllEstablishes(s1, inst, ds[1..]);
      forall i | 1 <= i < |ds| ensures Flushed(FlushAll(s, inst, ds), inst, ds[i]) {
        assert ds[i] == ds[1..][i - 1];
      }
    }
  }

  /** The flush loop over decisions that are all flushed writes nothing. */
  lemma {:induction false} FlushAllNoop(s: Store, inst: nat, ds: seq<Decision>)
    requires forall i :: 0 <= i < |ds| ==> Flushed(s, inst, ds[i])
    ensures FlushAll(s, inst, ds) == s
    decreases |ds|
  {
    if ds != [] {
      FlushOneNoop(s, inst, ds[0]);
      FlushAllNoop(s, inst, ds[1..]);
    }
  }

  lemma NamedByKeyDistinct(pending: OMap<string, Decision>)
    requires NamedByKey(pending)
    ensures DistinctNames(Decisions(pending))
  {
  }

  /** `saveSession` is idempotent: saving the session a second time, with the same
      pending decisions, leaves the store as the first save left it. */
  lemma SaveSessionIdempotent(st: State)
    requires NamedByKey(st.pending)
    requires SaveSession(st).Success?
    ensures SaveSession(SaveSession(st).value.0) == SaveSession(st)
  {
    if st.pending != [] {
      var ds := Decisions(st.pending);
      var inst := st.cached.value;
      NamedByKeyDistinct(st.pending);
      FlushAllEstablishes(st.store, inst, ds);
      FlushAllNoop(FlushAll(st.store, inst, ds), inst, ds);
    }
  }

  /** After `saveSession` every pending decision has its event on record, linked to the
      experiment record for its name and goal. */
  lemma SaveSessionRecords(st: State)
    requires NamedByKey(st.pending)
    requires SaveSession(st).Success?
    ensures forall i :: 0 <= i < |st.pending| ==>
              Recorded(SaveSession(st).value.0.store, st.cached.value, st.pending[i].val)
  {
    if st.pending != [] {
      var ds := Decisions(st.pending);
      NamedByKeyDistinct(st.pending);
      FlushAllEstablishes(st.store, st.cached.value, ds);
      forall i | 0 <= i < |st.pending|
        ensures Recorded(SaveSession(st).value.0.store, st.cached.value, st.pending[i].val)
      {
        FlushedRecorded(SaveSession(st).value.0.store, st.cached.value, ds[i]);
      }
    }
  }

  lemma FlushedRecorded(s: Store, inst: nat, d: Decision)
    requires Flushed(s, inst, d)
    ensures Recorded(s, inst, d)
  {
    var j := FindEvent(s.events, inst, d.name, d.fired).value;
    assert EventIs(s.events[j], inst, d.name, d.fired);
  }
}

=== FILE: invariants.dfy ===
/** The store invariant the engine keeps across requests: an instance never holds two
    events for one experiment name, provided no condition key is PHP-falsy. */
module Invariants {
  import opened Wrappers
  import opened OrderedMap
  import opened Weights
  import opened Records
  import opened Engine
  import opened Flush

  /** No instance has two events with the same experiment name. */
  ghost predicate AtMostOneEventPerName(events: seq<Event>) {
    forall i, j :: 0 <= i < j < |events| && events[i].instanceId == events[j].instanceId ==>
      events[i].name != events[j].name
  }

  ghost predicate TruthyEvents(events: seq<Event>) {
    forall i :: 0 <= i < |events| ==> Truthy(events[i].value)
  }

  /** Every event the instance already has for the decision's name holds the fired key. */
  ghost predicate Agrees(store: Store, inst: nat, d: Decision) {
    forall j :: 0 <= j < |store.events| && store.events[j].instanceId == inst && store.events[j].name == d.name ==>
      store.events[j].value == d.fired
  }

  ghost predicate PendingOk(store: Store, inst: nat, ds: seq<Decision>) {
    forall i :: 0 <= i < |ds| ==> Truthy(ds[i].fired) && Agrees(store, inst, ds[i])
  }

  ghost predicate Valid(st: State) {
    && (st.cached.None? ==> st.pending == [])
    && (st.cached.Some? ==> st.cached.value < |st.store.instances|)
    && UniqueTokens(st.store.instances)
    && AtMostOneEventPerName(st.store.events)
    && TruthyEvents(st.store.events)
    && NamedByKey(st.pending)
    && (st.cached.Some? ==> PendingOk(st.store, st.cached.value, Decisions(st.pending)))
  }

  /** No condition key is "" or "0". */
  ghost predicate TruthyKeys(conditions: OMap<string, string>) {
    forall i :: 0 <= i < |conditions| ==> Truthy(conditions[i].key)
  }

  /** An empty store, no session token, nothing cached or pending. */
  function Initial(): (st: State)
    ensures Valid(st)
  {
    State(Store([], [], [], []), None, None, [])
  }

  lemma BeginRequestValid(st: State)
    requires Valid(st)
    ensures Valid(BeginRequest(st))
  {
  }

  lemma EnsureUserValid(st: State, req: Request, force: bool)
    requires Valid(st)
    ensures Valid(EnsureUser(st, req, force))
  {
  }

  lemma RecordGoalValid(st: State, name: string, value: Option<string>)
    requires Valid(st)
    requires RecordGoal(st, name, value).Success?
    ensures Valid(RecordGoal(st, name, value).value)
  {
  }

  /** Under the invariant, a visitor's first event for a name is the one `track` replays. */
  lemma ReplayOfRecorded(store: Store, inst: nat, name: string)
    requires AtMostOneEventPerName(store.events) && TruthyEvents(store.events)
    ensures Replayed(store, inst, name) == HasExperiment(store, inst, name)
    ensures HasExperiment(store, inst, name).Some? ==>
              forall j :: 0 <= j < |store.events| && store.events[j].instanceId == inst && store.events[j].name == name ==>
                store.events[j].value == HasExperiment(store, inst, name).value
  {
    var h := HasExperiment(store, inst, name);
    if h.Some? {
      var k := FindNamed(store.events, inst, name).value;
      assert store.events[k].value == h.value;
      forall j | 0 <= j < |store.events| && store.events[j].instanceId == inst && store.events[j].name == name
        ensures store.events[j].value == h.value
      {
        assert j == k;
      }
    }
  }

  /** Under the invariant, every key `track` can fire is truthy when the pool's keys are. */
  lemma ChooseTruthy(store: Store, inst: nat, name: string, goal: string, pool: seq<string>,
                     tags: set<string>, roll: nat)
    requires AtMostOneEventPerName(store.events) && TruthyEvents(store.events)
    requires forall i :: 0 <= i < |pool| ==> Truthy(pool[i])
    requires roll < |pool| || pool == []
    requires Choose(store, inst, name, goal, pool, tags, roll).Some?
    ensures Truthy(Choose(store, inst, name, goal, pool, tags, roll).value)
  {
    var v := Choose(store, inst, name, goal, pool, tags, roll).value;
    if v !in pool && Replayed(store, inst, name) != Some(v) {
      var e := FindExperiment(store.experiments, name, goal).value;
      ExperimentValuesMembers(store.events, e);
      assert v in ExperimentValues(store.events, e);
    }
  }

  /** Under the invariant, the key `track` fires agrees with the instance's events for the name. */
  lemma ChooseAgrees(store: Store, inst: nat, name: string, goal: string, pool: seq<string>,
                     tags: set<string>, roll: nat)
    requires AtMostOneEventPerName(store.events) && TruthyEvents(store.events)
    requires roll < |pool| || pool == []
    requires Choose(store, inst, name, goal, pool, tags, roll).Some?
    ensures Agrees(store, inst, Decision(name, goal, Choose(store, inst, name, goal, pool, tags, roll).value))
  {
    ReplayOfRecorded(store, inst, name);
  }

  /** Registering a truthy, agreeing decision keeps every pending decision truthy and agreeing. */
  lemma InstanceEventPendingOk(store: Store, inst: nat, pending: OMap<string, Decision>, d: Decision)
    requires PendingOk(store, inst, Decisions(pending))
    requires Truthy(d.fired) && Agrees(store, inst, d)
    ensures PendingOk(store, inst, Decisions(InstanceEvent(pending, d)))
  {
    var p := InstanceEvent(pending, d);
    assert p == Put(pending, d.name, d);
    forall i | 0 <= i < |p| ensures Truthy(p[i].val.fired) && Agrees(store, inst, p[i].val) {
      if p[i] != Entry(d.name, d) {
        var k :| 0 <= k < |pending| && pending[k] == p[i];
        assert Decisions(pending)[k] == pending[k].val;
      }
    }
  }

  /** `track` keeps the invariant when no condition key is falsy. */
  lemma TrackValid(st: State, name: string, goal: string, conditions: OMap<string, string>,
                   tags: set<string>, roll: nat)
    requires Valid(st)
    requires TruthyKeys(conditions)
    requires roll < |Pool(Keys(conditions))| || Pool(Keys(conditions)) == []
    requires Track(st, name, goal, conditions, tags, roll).Success?
    ensures Valid(Track(st, name, goal, conditions, tags, roll).value.state)
  {
    var r := Track(st, name, goal, conditions, tags, roll).value;
    var c := st.cached.value;
    var pool := Pool(Keys(conditions));
    WeightedMembers(Keys(conditions));
    assert forall i :: 0 <= i < |pool| ==> pool[i] in Keys(conditions);
    ChooseTruthy(st.store, c, name, goal, pool, tags, roll);
    ChooseAgrees(st.store, c, name, goal, pool, tags, roll);
    var d := Decision(name, goal, r.fired);
    InstanceEventPendingOk(st.store, c, st.pending, d);
    assert r.state == st.(pending := InstanceEvent(st.pending, d));
  }

  /** Flushing one pending decision keeps the store invariant and the other decisions' agreement. */
  lemma FlushOneValid(s: Store, inst: nat, d: Decision, ds: seq<Decision>)
    requires AtMostOneEventPerName(s.events) && TruthyEvents(s.events)
    requires DistinctNames(ds) && d in ds
    requires PendingOk(s, inst, ds)
    ensures AtMostOneEventPerName(FlushOne(s, inst, d).events)
    ensures TruthyEvents(FlushOne(s, inst, d).events)
    ensures PendingOk(FlushOne(s, inst, d), inst, ds)
  {
    var r := FlushOne(s, inst, d);
    var n := |s.events|;
    var k :| 0 <= k < |ds| && ds[k] == d;
    assert Truthy(d.fired) && Agrees(s, inst, d);
    if |r.events| == n + 1 {
      assert forall j :: 0 <= j < n ==> !(s.events[j].instanceId == inst && s.events[j].name == d.name);
      forall i | 0 <= i < |ds| ensures Agrees(r, inst, ds[i]) {
        if ds[i].name == d.name {
          assert i == k;
        }
      }
    } else {
      forall i | 0 <= i < |ds| ensures Agrees(r, inst, ds[i]) {
      }
    }
  }

  lemma {:induction false} FlushAllValid(s: Store, inst: nat, todo: seq<Decision>, ds: seq<Decision>)
    requires AtMostOneEventPerName(s.events) && TruthyEvents(s.events)
    requires DistinctNames(ds)
    requires forall i :: 0 <= i < |todo| ==> todo[i] in ds
    requires PendingOk(s, inst, ds)
    ensures AtMostOneEventPerName(FlushAll(s, inst, todo).events)
    ensures TruthyEvents(FlushAll(s, inst, todo).events)
    ensures PendingOk(FlushAll(s, inst, todo), inst, ds)
    decreases |todo|
  {
    if todo != [] {
      FlushOneValid(s, inst, todo[0], ds);
      FlushAllValid(FlushOne(s, inst, todo[0]), inst, todo[1..], ds);
    }
  }

  /** `saveSession` keeps the invariant. */
  lemma SaveSessionValid(st: State)
    requires Valid(st)
    requires SaveSession(st).Success?
    ensures Valid(SaveSession(st).value.0)
  {
    if st.pending != [] {
      var ds := Decisions(st.pending);
      NamedByKeyDistinct(st.pending);
      FlushAllValid(st.store, st.cached.value, ds, ds);
    }
  }

  /** One step of a visitor's traffic, as the host application drives the engine. */
  datatype Op =
    | NewRequest
    | Identify(req: Request, force: bool)
    | Block(name: string, goal: string, conditions: OMap<string, string>, tags: set<string>, roll: nat)
    | Save
    | ReachGoal(goalName: string, value: Option<string>)

  /** The random index of a block lies in its pool. */
  predicate RollFits(op: Op) {
    op.Block? ==> op.roll < |Pool(Keys(op.conditions))| || Pool(Keys(op.conditions)) == []
  }

  function Apply(st: State, op: Op): Result<State>
    requires RollFits(op)
  {
    match op
    case NewRequest => Success(BeginRequest(st))
    case Identify(req, force) => Success(EnsureUser(st, req, force))
    case Block(name, goal, conditions, tags, roll) =>
      (match Track(st, name, goal, conditions, tags, roll)
       case Success(shown) => Success(shown.state)
       case Failure(e) => Failure(e))
    case Save =>
      (match SaveSession(st)
       case Success(saved) => Success(saved.0)
       case Failure(e) => Failure(e))
    case ReachGoal(goalName, value) => RecordGoal(st, goalName, value)
  }

  function Run(st: State, ops: seq<Op>): Result<State>
    requires forall i :: 0 <= i < |ops| ==> RollFits(ops[i])
    decreases |ops|
  {
    if ops == [] then Success(st)
    else
      match Apply(st, ops[0])
      case Success(st1) => Run(st1, ops[1..])
      case Failure(e) => Failure(e)
  }

  ghost predicate TruthyOp(op: Op) {
    op.Block? ==> TruthyKeys(op.conditions)
  }

  lemma ApplyValid(st: State, op: Op)
    requires Valid(st) && RollFits(op) && TruthyOp(op)
    requires Apply(st, op).Success?
    ensures Valid(Apply(st, op).value)
  {
    match op
    case NewRequest =>
    case Identify(req, force) => EnsureUserValid(st, req, force);
    case Block(name, goal, conditions, tags, roll) => TrackValid(st, name, goal, conditions, tags, roll);
    case Save => SaveSessionValid(st);
    case ReachGoal(goalName, value) => RecordGoalValid(st, goalName, value);
  }

  /** Every sequence of steps whose condition keys are truthy keeps the invariant. */
  lemma {:induction false} RunValid(st: State, ops: seq<Op>)
    requires Valid(st)
    requires forall i :: 0 <= i < |ops| ==> RollFits(ops[i]) && TruthyOp(ops[i])
    requires Run(st, ops).Success?
    ensures Valid(Run(st, ops).value)
    decreases |ops|
  {
    if ops != [] {
      ApplyValid(st, ops[0]);
      RunValid(Apply(st, ops[0]).value, ops[1..]);
    }
  }

  /** However many requests, blocks, saves and goals: starting from an empty store, no
      instance ever holds two events for one experiment name. */
  lemma AtMostOneEventEver(ops: seq<Op>)
    requires forall i :: 0 <= i < |ops| ==> RollFits(ops[i]) && TruthyOp(ops[i])
    requires Run(Initial(), ops).Success?
    ensures AtMostOneEventPerName(Run(Initial(), ops).value.store.events)
  {
    RunValid(Initial(), ops);
  }

  /** Old events keep their instance, name and value through every step. */
  lemma {:induction false} RunKeepsEvents(st: State, ops: seq<Op>)
    requires forall i :: 0 <= i < |ops| ==> RollFits(ops[i])
    requires Run(st, ops).Success?
    ensures |st.store.events| <= |Run(st, ops).value.store.events|
    ensures forall j :: 0 <= j < |st.store.events| ==>
              EventIs(Run(st, ops).value.store.events[j],
                      st.store.events[j].instanceId, st.store.events[j].name, st.store.events[j].value)
    decreases |ops|
  {
    if ops != [] {
      var st1 := Apply(st, ops[0]).value;
      RunKeepsEvents(st1, ops[1..]);
    }
  }

  /** Once an instance's assignment is on record, it sticks: after any further successful
      steps, a block for that experiment run by the same instance fires the recorded key,
      whatever the conditions, tags, history and draw. */
  lemma AssignmentSticks(st: State, ops: seq<Op>, inst: nat, name: string, value: string, j: nat,
                         goal: string, conditions: OMap<string, string>, tags: set<string>, roll: nat)
    requires Valid(st)
    requires forall i :: 0 <= i < |ops| ==> RollFits(ops[i]) && TruthyOp(ops[i])
    requires j < |st.store.events| && EventIs(st.store.events[j], inst, name, value)
    requires Run(st, ops).Success?
    requires Run(st, ops).value.cached == Some(inst)
    requires roll < |Pool(Keys(conditions))| || Pool(Keys(conditions)) == []
    ensures Track(Run(st, ops).value, name, goal, conditions, tags, roll).Success?
    ensures Track(Run(st, ops).value, name, goal, conditions, tags, roll).value.fired == value
  {
    var st2 := Run(st, ops).value;
    RunValid(st, ops);
    RunKeepsEvents(st, ops);
    assert EventIs(st2.store.events[j], inst, name, value);
    ReplayOfRecorded(st2.store, inst, name);
    assert HasExperiment(st2.store, inst, name).Some?;
  }

  /** A visitor whose only event for "exp" stored the PHP-falsy key "0". */
  const FalsyStart := State(Store([Instance("t", Some("ip"))], [], [Event(0, "exp", "0", None)], []),
                            Some("t"), Some(0), [])

  /** `track` does not replay the stored "0": it draws "1" and registers it. */
  lemma FalsyTrack()
    ensures Track(FalsyStart, "exp", "goal", [Entry("1", "one")], {}, 0).Success?
    ensures Track(FalsyStart, "exp", "goal", [Entry("1", "one")], {}, 0).value.fired == "1"
    ensures Track(FalsyStart, "exp", "goal", [Entry("1", "one")], {}, 0).value.state
              == FalsyStart.(pending := [Entry("exp", Decision("exp", "goal", "1"))])
  {
    var st := FalsyStart;
    var conditions := [Entry("1", "one")];
    assert Keys(conditions) == ["1"];
    assert Weight("1").None? by {
      assert MatchAt("1", 0).None?;
    }
    assert Pool(["1"]) == ["1"];
    assert HasExperiment(st.store, 0, "exp") == Some("0");
    assert History(st.store, "exp", "goal").None?;
    var t := Track(st, "exp", "goal", conditions, {}, 0);
    assert t.value.fired == "1";
    var p := t.value.state.pending;
    assert Get(p, "exp") == Some(Decision("exp", "goal", "1"));
  }

  /** Saving that decision appends an event for "1", linked to a new experiment record. */
  lemma FalsySave()
    ensures
      var st := FalsyStart.(pending := [Entry("exp", Decision("exp", "goal", "1"))]);
      && SaveSession(st).Success?
      && SaveSession(st).value.0.store.events == [Event(0, "exp", "0", None), Event(0, "exp", "1", Some(0))]
  {
    var st := FalsyStart.(pending := [Entry("exp", Decision("exp", "goal", "1"))]);
    var d := Decision("exp", "goal", "1");
    assert Decisions(st.pending) == [d];
    var (s1, e) := FirstOrCreateExperiment(st.store, "exp", "goal");
    assert e == 0 && s1.events == st.store.events;
    assert FindEvent(s1.events, 0, "exp", "1").None? by {
      assert !EventIs(s1.events[0], 0, "exp", "1");
    }
    var (s2, j) := FirstOrCreateEvent(s1, 0, "exp", "1");
    assert j == 1 && s2.events == [Event(0, "exp", "0", None), Event(0, "exp", "1", None)];
    var flushed := FlushOne(st.store, 0, d);
    assert flushed.events == [Event(0, "exp", "0", None), Event(0, "exp", "1", Some(0))];
    assert [d][1..] == [];
    assert FlushAll(st.store, 0, [d]) == flushed;
  }

  /** With a condition key "0" the invariant breaks: a stored "0" is falsy, so `track`
      does not replay it and draws again, and the flush adds a second event for the name. */
  lemma FalsyKeyDuplicates()
    ensures
      var t := Track(FalsyStart, "exp", "goal", [Entry("1", "one")], {}, 0);
      && t.Success? && t.value.fired == "1"
      && SaveSession(t.value.state).Success?
      && !AtMostOneEventPerName(SaveSession(t.value.state).value.0.store.events)
  {
    FalsyTrack();
    FalsySave();
    var st := FalsyStart.(pending := [Entry("exp", Decision("exp", "goal", "1"))]);
    var events := SaveSession(st).value.0.store.events;
    assert events[0].instanceId == events[1].instanceId && events[0].name == events[1].name;
  }
}

=== FILE: ordered_map.dfy ===
/** A PHP array used as a dictionary: entries kept in insertion order, keys distinct.
    `Put` is the assignment `$a[$k] = $v`: an existing key keeps its position and
    takes the new value, a new key is appended at the end. */
module OrderedMap {
  import opened Wrappers
  import opened Search

  datatype Entry<K, V> = Entry(key: K, val: V)

  type OMap<K, V> = seq<Entry<K, V>>

  function Keys<K, V>(m: OMap<K, V>): (ks: seq<K>)
    ensures |ks| == |m|
    ensures forall i :: 0 <= i < |m| ==> ks[i] == m[i].key
  {
    seq(|m|, i requires 0 <= i < |m| => m[i].key)
  }

  ghost predicate DistinctKeys<K, V>(m: OMap<K, V>) {
    forall i, j :: 0 <= i < j < |m| ==> m[i].key != m[j].key
  }

  /** Position of the entry for `k`, if there is one. */
  function IndexOf<K(==), V>(m: OMap<K, V>, k: K): (r: Option<nat>)
    ensures r.Some? ==> r.value < |m| && m[r.value].key == k
                        && forall j :: 0 <= j < r.value ==> m[j].key != k
    ensures r.None? <==> forall j :: 0 <= j < |m| ==> m[j].key != k
  {
    FirstWhere(m, (e: Entry<K, V>) => e.key == k)
  }

  /** `$a[$k]`, with `None` for an undefined key. */
  function Get<K(==), V>(m: OMap<K, V>, k: K): Option<V> {
    match IndexOf(m, k)
    case Some(i) => Some(m[i].val)
    case None => None
  }

  /** Two maps with the same key at every position look keys up at the same position. */
  lemma SameKeysSameIndex<K, V>(a: OMap<K, V>, b: OMap<K, V>, k: K)
    requires Keys(a) == Keys(b)
    ensures IndexOf(a, k) == IndexOf(b, k)
  {
    assert |a| == |b|;
    assert forall j :: 0 <= j < |a| ==> a[j].key == Keys(a)[j] == Keys(b)[j] == b[j].key;
  }

  /** `$a[$k] = $v`. */
  function Put<K(==, !new), V>(m: OMap<K, V>, k: K, v: V): (r: OMap<K, V>)
    ensures Get(r, k) == Some(v)
    ensures forall k' :: k' != k ==> Get(r, k') == Get(m, k')
    ensures k in Keys(m) ==> Keys(r) == Keys(m)
    ensures k !in Keys(m) ==> Keys(r) == Keys(m) + [k]
    ensures DistinctKeys(m) ==> DistinctKeys(r)
    ensures forall i :: 0 <= i < |r| ==> r[i] == Entry(k, v) || r[i] in m
  {
    match IndexOf(m, k)
    case Some(i) =>
      var r := m[i := Entry(k, v)];
      assert Keys(r) == Keys(m);
      forall k' | k' != k ensures Get(r, k') == Get(m, k') {
        SameKeysSameIndex(r, m, k');
      }
      r
    case None =>
      var r := m + [Entry(k, v)];
      assert forall j :: 0 <= j < |m| ==> r[j] == m[j];
      assert r[|m|].key == k;
      assert IndexOf(r, k) == Some(|m|);
      assert Keys(r) == Keys(m) + [k];
      forall k' | k' != k ensures Get(r, k') == Get(m, k') {
        var i := IndexOf(m, k');
        var i' := IndexOf(r, k');
        if i.Some? {
          assert i' == i;
        } else {
          assert i'.None?;
        }
      }
      r
  }

  /** With distinct keys, the entry at position `i` is the one its key looks up. */
  lemma GetAt<K, V>(m: OMap<K, V>, i: nat)
    requires DistinctKeys(m)
    requires i < |m|
    ensures Get(m, m[i].key) == Some(m[i].val)
  {
    var r := IndexOf(m, m[i].key);
    assert r.Some?;
    assert r.value == i;
  }
}

=== FILE: records.dfy ===
/** The four persisted record kinds and the Eloquent lookups the engine performs on them.
    A record's id is its position in its table (the auto-increment key). */
module Records {
  import opened Wrappers
  import opened Search

  /** A visitor identity: `instance` is the token, `identifier` the last client IP seen. */
  datatype Instance = Instance(token: string, identifier: Option<string>)

  /** An experiment definition, naturally keyed by (experiment, goal). */
  datatype Experiment = Experiment(name: string, goal: string)

  /** One fired condition: owned by an instance, linked to an experiment once saved under it. */
  datatype Event = Event(instanceId: nat, name: string, value: string, experimentId: Option<nat>)

  /** A milestone reached by an instance. */
  datatype Goal = Goal(instanceId: nat, name: string, value: Option<string>)

  datatype Store = Store(
    instances: seq<Instance>,
    experiments: seq<Experiment>,
    events: seq<Event>,
    goals: seq<Goal>)

  /** `Instance::where('instance', token)->first()`. */
  function FindInstance(xs: seq<Instance>, token: string): (r: Option<nat>)
    ensures r.Some? ==> r.value < |xs| && xs[r.value].token == token
                        && forall j :: 0 <= j < r.value ==> xs[j].token != token
    ensures r.None? <==> forall j :: 0 <= j < |xs| ==> xs[j].token != token
  {
    FirstWhere(xs, (x: Instance) => x.token == token)
  }

  /** `Experiments::where(['experiment' => name, 'goal' => goal])->first()`. */
  function FindExperiment(xs: seq<Experiment>, name: string, goal: string): (r: Option<nat>)
    ensures r.Some? ==> r.value < |xs| && xs[r.value] == Experiment(name, goal)
                        && forall j :: 0 <= j < r.value ==> xs[j] != Experiment(name, goal)
    ensures r.None? <==> forall j :: 0 <= j < |xs| ==> xs[j] != Experiment(name, goal)
  {
    FirstWhere(xs, (x: Experiment) => x == Experiment(name, goal))
  }

  predicate EventIs(e: Event, inst: nat, name: string, value: string) {
    e.instanceId == inst && e.name == name && e.value == value
  }

  /** `Events::where(['instance_id' => inst, 'name' => name, 'value' => value])->first()`. */
  function FindEvent(xs: seq<Event>, inst: nat, name: string, value: string): (r: Option<nat>)
    ensures r.Some? ==> r.value < |xs| && EventIs(xs[r.value], inst, name, value)
                        && forall j :: 0 <= j < r.value ==> !EventIs(xs[j], inst, name, value)
    ensures r.None? <==> forall j :: 0 <= j < |xs| ==> !EventIs(xs[j], inst, name, value)
  {
    FirstWhere(xs, (e: Event) => EventIs(e, inst, name, value))
  }

  /** The first of `inst`'s events whose name is `name`, in storage order. */
  function FindNamed(xs: seq<Event>, inst: nat, name: string): (r: Option<nat>)
    ensures r.Some? ==> r.value < |xs| && xs[r.value].instanceId == inst && xs[r.value].name == name
                        && forall j :: 0 <= j < r.value ==> !(xs[j].instanceId == inst && xs[j].name == name)
    ensures r.None? <==> forall j :: 0 <= j < |xs| ==> !(xs[j].instanceId == inst && xs[j].name == name)
  {
    FirstWhere(xs, (e: Event) => e.instanceId == inst && e.name == name)
  }

  /** `Instance::firstOrCreate(['instance' => token])`: the first instance holding the
      token is reused and nothing is written; otherwise one fresh instance is appended. */
  function FirstOrCreateInstance(st: Store, token: string): (r: (Store, nat))
    ensures r.1 < |r.0.instances| && r.0.instances[r.1].token == token
    ensures r.0.experiments == st.experiments && r.0.events == st.events && r.0.goals == st.goals
    ensures (exists j :: 0 <= j < |st.instances| && st.instances[j].token == token) ==>
              r.0 == st && forall j :: 0 <= j < r.1 ==> st.instances[j].token != token
    ensures (forall j :: 0 <= j < |st.instances| ==> st.instances[j].token != token) ==>
              r.0.instances == st.instances + [Instance(token, None)]
  {
    match FindInstance(st.instances, token)
    case Some(i) => (st, i)
    case None => (st.(instances := st.instances + [Instance(token, None)]), |st.instances|)
  }

  /** `Experiments::firstOrCreate(['experiment' => name, 'goal' => goal])`. */
  function FirstOrCreateExperiment(st: Store, name: string, goal: string): (r: (Store, nat))
    ensures r.1 < |r.0.experiments| && r.0.experiments[r.1] == Experiment(name, goal)
    ensures r.0.instances == st.instances && r.0.events == st.events && r.0.goals == st.goals
    ensures (exists j :: 0 <= j < |st.experiments| && st.experiments[j] == Experiment(name, goal)) ==>
              r.0 == st && forall j :: 0 <= j < r.1 ==> st.experiments[j] != Experiment(name, goal)
    ensures (forall j :: 0 <= j < |st.experiments| ==> st.experiments[j] != Experiment(name, goal)) ==>
              r.0.experiments == st.experiments + [Experiment(name, goal)]
  {
    match FindExperiment(st.experiments, name, goal)
    case Some(i) => (st, i)
    case None => (st.(experiments := st.experiments + [Experiment(name, goal)]), |st.experiments|)
  }

  /** `Events::firstOrCreate(['instance_id' => inst, 'name' => name, 'value' => value])`. */
  function FirstOrCreateEvent(st: Store, inst: nat, name: string, value: string): (r: (Store, nat))
    ensures r.1 < |r.0.events| && EventIs(r.0.events[r.1], inst, name, value)
    ensures r.0.instances == st.instances && r.0.experiments == st.experiments && r.0.goals == st.goals
    ensures (exists j :: 0 <= j < |st.events| && EventIs(st.events[j], inst, name, value)) ==>
              r.0 == st && forall j :: 0 <= j < r.1 ==> !EventIs(st.events[j], inst, name, value)
    ensures (forall j :: 0 <= j < |st.events| ==> !EventIs(st.events[j], inst, name, value)) ==>
              r.0.events == st.events + [Event(inst, name, value, None)]
  {
    match FindEvent(st.events, inst, name, value)
    case Some(i) => (st, i)
    case None => (st.(events := st.events + [Event(inst, name, value, None)]), |st.events|)
  }

  /** Whether the event at position `j` is linked to experiment `id`. */
  predicate LinkedTo(events: seq<Event>, id: nat, j: nat) {
    j < |events| && events[j].experimentId == Some(id)
  }

  /** The positions of the events linked to experiment `id`: every such position once,
      in increasing order. */
  function LinkedPositions(events: seq<Event>, id: nat): (ps: seq<nat>)
    ensures forall i :: 0 <= i < |ps| ==> LinkedTo(events, id, ps[i])
    ensures forall i, k :: 0 <= i < k < |ps| ==> ps[i] < ps[k]
    ensures forall j: nat :: LinkedTo(events, id, j) ==> j in ps
    decreases |events|
  {
    if events == [] then []
    else
      var init := events[..|events| - 1];
      var last := |events| - 1;
      assert forall j: nat :: LinkedTo(init, id, j) <==> j < last && LinkedTo(events, id, j);
      var ps := LinkedPositions(init, id);
      if LinkedTo(events, id, last) then ps + [last] else ps
  }

  /** The values of the events linked to experiment `id` (`$experiment->events`), in storage
      order: one value per linked event, so each value occurs as often as its linked events. */
  function ExperimentValues(events: seq<Event>, id: nat): (vs: seq<string>)
    ensures |vs| == |LinkedPositions(events, id)|
    ensures forall i :: 0 <= i < |vs| ==> vs[i] == events[LinkedPositions(events, id)[i]].value
    decreases |events|
  {
    if events == [] then []
    else
      var init := events[..|events| - 1];
      var last := |events| - 1;
      var rest := ExperimentValues(init, id);
      if LinkedTo(events, id, last) then rest + [events[last].value] else rest
  }

  /** A value is historical exactly when some event linked to the experiment carries it. */
  lemma ExperimentValuesMembers(events: seq<Event>, id: nat)
    ensures forall v :: v in ExperimentValues(events, id) <==>
              exists j: nat :: LinkedTo(events, id, j) && events[j].value == v
  {
    var vs := ExperimentValues(events, id);
    var ps := LinkedPositions(events, id);
    forall v | v in vs ensures exists j: nat :: LinkedTo(events, id, j) && events[j].value == v {
      var i :| 0 <= i < |vs| && vs[i] == v;
      assert LinkedTo(events, id, ps[i]);
    }
    forall j: nat | LinkedTo(events, id, j) ensures events[j].value in vs {
      var i :| 0 <= i < |ps| && ps[i] == j;
      assert vs[i] == events[j].value;
    }
  }
}

=== FILE: search.dfy ===
/** The one linear scan behind every `where(...)->first()` lookup and every PHP array
    key lookup: the position of the first element, in storage order, that satisfies a test. */
module Search {
  import opened Wrappers

  function FirstWhere<T>(xs: seq<T>, p: T -> bool): (r: Option<nat>)
    ensures r.Some? ==> r.value < |xs| && p(xs[r.value]) && forall j :: 0 <= j < r.value ==> !p(xs[j])
    ensures r.None? <==> forall j :: 0 <= j < |xs| ==> !p(xs[j])
  {
    if xs == [] then None
    else if p(xs[0]) then Some(0)
    else
      match FirstWhere(xs[1..], p)
      case Some(i) => Some(i + 1)
      case None => None
  }
}

=== FILE: weights.dfy ===
/** Weighted expansion of condition keys into the draw pool (the first loop of `track`).
    A key such as "promo[3]" carries the weight 3: the first match of the pattern
    `\[(\d+)\]` anywhere in the key. */
module Weights {
  import opened Wrappers

  predicate IsDigit(c: char) {
    '0' <= c <= '9'
  }

  ghost predicate AllDigits(d: string) {
    forall j :: 0 <= j < |d| ==> IsDigit(d[j])
  }

  /** Length of the run of ASCII digits that starts at `i`. */
  function DigitRun(s: string, i: nat): (n: nat)
    requires i <= |s|
    ensures i + n <= |s|
    ensures forall j :: i <= j < i + n ==> IsDigit(s[j])
    ensures i + n == |s| || !IsDigit(s[i + n])
    decreases |s| - i
  {
    if i < |s| && IsDigit(s[i]) then 1 + DigitRun(s, i + 1) else 0
  }

  /** The number a string of decimal digits denotes ("007" is 7). */
  function DecimalValue(d: string): nat
    requires AllDigits(d)
  {
    if d == [] then 0 else 10 * DecimalValue(d[..|d| - 1]) + (d[|d| - 1] as int - '0' as int)
  }

  /** The pattern matches at `p` and ends with the `]` at `q`: `[`, one or more digits, `]`. */
  ghost predicate Brackets(s: string, p: nat, q: nat) {
    && p + 1 < q < |s|
    && s[p] == '['
    && AllDigits(s[p + 1 .. q])
    && s[q] == ']'
  }

  /** A digit run that stops at a non-digit at `j` has length `j - i`. */
  lemma {:induction false} DigitRunExact(s: string, i: nat, j: nat)
    requires i <= j < |s|
    requires forall k :: i <= k < j ==> IsDigit(s[k])
    requires !IsDigit(s[j])
    ensures DigitRun(s, i) == j - i
    decreases j - i
  {
    if i < j {
      DigitRunExact(s, i + 1, j);
    }
  }

  /** A match starting at `p` can only end after the whole digit run. */
  lemma BracketsEnd(s: string, p: nat)
    requires p < |s|
    ensures forall q: nat :: Brackets(s, p, q) ==> q == p + 1 + DigitRun(s, p + 1)
  {
    forall q: nat | Brackets(s, p, q) ensures q == p + 1 + DigitRun(s, p + 1) {
      forall k | p + 1 <= k < q ensures IsDigit(s[k]) {
        assert s[k] == s[p + 1 .. q][k - (p + 1)];
      }
      DigitRunExact(s, p + 1, q);
    }
  }

  /** The number captured by a match of the pattern that starts at `p`, if one does. */
  function MatchAt(s: string, p: nat): (r: Option<nat>)
    requires p < |s|
    ensures r.Some? <==> exists q: nat :: Brackets(s, p, q)
    ensures forall q: nat :: Brackets(s, p, q) ==> r == Some(DecimalValue(s[p + 1 .. q]))
  {
    if s[p] != '[' then None
    else
      var n := DigitRun(s, p + 1);
      var q := p + 1 + n;
      BracketsEnd(s, p);
      if n >= 1 && q < |s| && s[q] == ']' then
        assert Brackets(s, p, q);
        Some(DecimalValue(s[p + 1 .. q]))
      else
        None
  }

  /** The leftmost match at or after `p`, as the regex engine scans. */
  function FirstMatchFrom(s: string, p: nat): (r: Option<nat>)
    requires p <= |s|
    ensures r.Some? ==> exists q :: p <= q < |s| && MatchAt(s, q) == r
                                    && forall j :: p <= j < q ==> MatchAt(s, j).None?
    ensures r.None? ==> forall j :: p <= j < |s| ==> MatchAt(s, j).None?
    decreases |s| - p
  {
    if p == |s| then None
    else if MatchAt(s, p).Some? then MatchAt(s, p)
    else FirstMatchFrom(s, p + 1)
  }

  /** `preg_match('/\[(\d+)\]/', $key, $matches)` and `$matches[1]`. */
  function Weight(key: string): Option<nat> {
    FirstMatchFrom(key, 0)
  }

  /** PHP's `range($lo, $hi)` with the default step 1: it starts at `lo`, ends at `hi`,
      and counts up when `lo <= hi` and down otherwise. */
  function PhpRange(lo: int, hi: int): (r: seq<int>)
    ensures |r| >= 1 && r[0] == lo && r[|r| - 1] == hi
    ensures forall i :: 0 <= i < |r| ==> r[i] == if lo <= hi then lo + i else lo - i
    decreases if lo <= hi then hi - lo else lo - hi
  {
    if lo == hi then [lo]
    else if lo < hi then [lo] + PhpRange(lo + 1, hi)
    else [lo] + PhpRange(lo - 1, hi)
  }

  /** `count(range(1, $n))`, the number of copies the inner loop adds for weight `n`. */
  function Repeats(n: nat): (c: nat)
    ensures c >= 1
    ensures n >= 1 ==> c == n
    ensures n == 0 ==> c == 2
  {
    |PhpRange(1, n)|
  }

  function Repeat(k: string, n: nat): (r: seq<string>)
    ensures |r| == n
    ensures forall i :: 0 <= i < n ==> r[i] == k
  {
    seq(n, _ => k)
  }

  /** The copies of one key that the loop adds to the pool. */
  function Copies(key: string): seq<string> {
    match Weight(key)
    case Some(n) => Repeat(key, Repeats(n))
    case None => []
  }

  /** The loop of `track`: weighted keys repeated in key order, unweighted keys skipped. */
  function Weighted(keys: seq<string>): seq<string> {
    if keys == [] then [] else Copies(keys[0]) + Weighted(keys[1..])
  }

  /** The draw pool: the expansion, or all keys in order when no key carries a weight. */
  function Pool(keys: seq<string>): (r: seq<string>)
    ensures forall x :: x in r ==> x in keys
    ensures r == [] <==> keys == []
    ensures !AnyWeighted(keys) ==> r == keys
  {
    WeightedEmptyIff(keys);
    WeightedMembers(keys);
    var w := Weighted(keys);
    if w == [] then keys else w
  }

  ghost predicate Distinct(keys: seq<string>) {
    forall i, j :: 0 <= i < j < |keys| ==> keys[i] != keys[j]
  }

  ghost predicate AnyWeighted(keys: seq<string>) {
    exists i :: 0 <= i < |keys| && Weight(keys[i]).Some?
  }

  /** How many copies of `k` the expansion holds, as the weight rule says. */
  function ExpectedCopies(keys: seq<string>, k: string): nat {
    if k in keys then
      match Weight(k)
      case Some(n) => Repeats(n)
      case None => 0
    else 0
  }

  lemma {:induction false} WeightedCount(keys: seq<string>, k: string)
    requires Distinct(keys)
    ensures multiset(Weighted(keys))[k] == ExpectedCopies(keys, k)
    decreases |keys|
  {
    if keys != [] {
      var rest := keys[1..];
      assert Distinct(rest);
      WeightedCount(rest, k);
      var c := Copies(keys[0]);
      assert Weighted(keys) == c + Weighted(rest);
      assert multiset(Weighted(keys)) == multiset(c) + multiset(Weighted(rest));
      assert multiset(c)[k] == (if k == keys[0] then |c| else 0) by {
        if k != keys[0] {
          assert k !in c;
        } else {
          assert c == seq(|c|, _ => k);
          RepeatCount(k, |c|);
        }
      }
      if k == keys[0] {
        assert k !in rest;
        assert ExpectedCopies(rest, k) == 0;
      } else {
        assert (k in keys) == (k in rest);
      }
    }
  }

  lemma {:induction false} RepeatCount(k: string, n: nat)
    ensures multiset(seq(n, _ => k))[k] == n
  {
    if n > 0 {
      assert seq(n, _ => k) == seq(n - 1, _ => k) + [k];
      RepeatCount(k, n - 1);
    }
  }

  lemma {:induction false} WeightedEmptyIff(keys: seq<string>)
    ensures Weighted(keys) == [] <==> !AnyWeighted(keys)
    decreases |keys|
  {
    if keys != [] {
      WeightedEmptyIff(keys[1..]);
      assert AnyWeighted(keys) <==> Weight(keys[0]).Some? || AnyWeighted(keys[1..]) by {
        if AnyWeighted(keys[1..]) {
          var i :| 0 <= i < |keys[1..]| && Weight(keys[1..][i]).Some?;
          assert Weight(keys[i + 1]).Some?;
        }
        if AnyWeighted(keys) && Weight(keys[0]).None? {
          var i :| 0 <= i < |keys| && Weight(keys[i]).Some?;
          assert keys[1..][i - 1] == keys[i];
        }
      }
    }
  }

  lemma {:induction false} WeightedMembers(keys: seq<string>)
    ensures forall x :: x in Weighted(keys) ==> x in keys
    decreases |keys|
  {
    if keys != [] {
      WeightedMembers(keys[1..]);
    }
  }

  /** The pool holds exactly the copies the weights ask for: a weighted key
      `Repeats(n)` times, an unweighted key not at all, as soon as one key is weighted;
      otherwise the pool is the key list itself. Every pool entry is a key, and
      a non-empty key list gives a non-empty pool. */
  lemma PoolContents(keys: seq<string>)
    requires Distinct(keys)
    ensures AnyWeighted(keys) ==> forall k :: multiset(Pool(keys))[k] == ExpectedCopies(keys, k)
    ensures !AnyWeighted(keys) ==> Pool(keys) == keys
    ensures forall x :: x in Pool(keys) ==> x in keys
    ensures |keys| > 0 ==> |Pool(keys)| > 0
  {
    WeightedEmptyIff(keys);
    WeightedMembers(keys);
    forall k ensures AnyWeighted(keys) ==> multiset(Pool(keys))[k] == ExpectedCopies(keys, k) {
      WeightedCount(keys, k);
    }
  }

  /** "A[3]" carries the weight 3: the pattern first matches at the `[`. */
  lemma WeightOfA3()
    ensures Weight("A[3]") == Some(3)
  {
    assert MatchAt("A[3]", 1) == Some(3) by {
      assert Brackets("A[3]", 1, 3);
      assert "A[3]"[2..3] == "3";
    }
    assert MatchAt("A[3]", 0).None?;
  }

  /** The leftmost match decides: "A[2][5]" weighs 2, not 5. */
  lemma LeftmostWeight()
    ensures Weight("A[2][5]") == Some(2)
  {
    assert MatchAt("A[2][5]", 1) == Some(2) by {
      assert Brackets("A[2][5]", 1, 3);
      assert "A[2][5]"[2..3] == "2";
    }
    assert MatchAt("A[2][5]", 0).None?;
  }

  /** With "A[3]" and "B", the unweighted "B" drops out and "A[3]" fills the pool. */
  lemma MixedWeightsDropUnweighted()
    ensures Pool(["A[3]", "B"]) == ["A[3]", "A[3]", "A[3]"]
  {
    WeightOfA3();
    assert MatchAt("B", 0).None?;
    assert Copies("A[3]") == Repeat("A[3]", 3);
    assert Weighted(["B"]) == [] by {
      assert ["B"][1..] == [];
    }
    assert Weighted(["A[3]", "B"]) == Repeat("A[3]", 3) + Weighted(["B"]) by {
      assert ["A[3]", "B"][1..] == ["B"];
    }
  }
}

=== FILE: wrappers.dfy ===
/** Option and Result, used where the PHP code returns `false`/`null` or fails. */
module Wrappers {

  /** `None` stands for PHP's `false` / `null` "nothing found" returns. */
  datatype Option<+T> = None | Some(value: T)

  /** The ways a step of the model can fail instead of producing a state. */
  datatype Error =
    | NoInstance      // `self::$session` is still null when the step dereferences it
    | EmptyPool       // the random draw was reached with no condition keys

  datatype Result<+T> = Success(value: T) | Failure(error: Error)
}
